=== FILE: README.md ===
# pytest-mirror, modelled in Dafny

pytest-mirror enforces a test layout that mirrors the package layout. Each
module `pkg/a/b.py` should have a test module `tests/a/test_b.py`. This project
models the five pieces that make up its core:

- **The resolver** (`find_missing_tests`, module `Core`). It decides which test
  modules are missing.
- **The generator** (`generate_missing_tests`, module `Generator`). It creates
  each missing test directory with an `__init__.py` and a placeholder test
  module that always fails.
- **The validator registry** (`get_plugin_manager` and the
  `validate_test_structure` hook call, module `Registry`). It collects and
  flattens the lists that each registered validator reports.
- **The pytest session hook** (`pytest_sessionstart` and
  `_get_auto_generate_config`, module `Plugin`). It resolves the package and
  tests directories from an option, an environment variable or auto-detection.
  It reads the auto-generate switch. Then it either writes placeholders or ends
  the run with exit code 1.
- **The command line** (`detect_default_package_dir`, `validate_missing_tests`
  and `main`, module `Cli`).

The filesystem is a finite map (module `Fs`). Keys are paths, written as
sequences of components with `[]` as the root. Values are a regular file with
its content, or a directory. Every operation is a pure function of this map.
The order in which `rglob` and `iterdir` enumerate entries is unspecified, so
each operation takes it as a parameter. Its properties are then stated for
every enumeration that lists the directory's entries exactly once.
`mkdir(parents=True, exist_ok=True)` fails exactly when a regular file sits
somewhere on the directory's path.

Directory arguments given as text are turned into paths by a `parse`
parameter. The environment variables, the project root and the current
directory are inputs as well.

## Model

| member | source | states |
|---|---|---|
| Fs.MkdirParents | src/pytest_mirror/core.py:38 | The call fails exactly when a regular file sits on the directory's path; otherwise every ancestor and the directory itself become directories, nothing existing is changed, and the only new entries are directories on that path. |
| Fs.MkdirExisting | src/pytest_mirror/core.py:38 | On an existing directory chain, `mkdir(parents=True, exist_ok=True)` changes nothing. |
| Fs.FirstChildDir | src/pytest_mirror/plugin.py:84-91 | Picking `subdirs[0]` from a listing yields nothing exactly when no listed entry is an accepted directory; otherwise it yields the first listed child that is an accepted directory. |
| Fs.FirstChildDirNone | src/pytest_mirror/cli.py:50-56 | With a complete listing, finding nothing means the directory has no accepted child directory at all. |
| Core.GlobEntriesMember | src/pytest_mirror/core.py:13-16 | A relative path is enumerated by `rglob("*.py")` exactly when it is non-empty, exists below the package and ends in `.py`. |
| Core.CheckPackageDir | src/pytest_mirror/core.py:8-11 | A missing package directory gives FileNotFoundError, an existing non-directory gives NotADirectoryError, and a directory passes. |
| Core.SourceOfMirror | src/pytest_mirror/core.py:16-17 | The module-to-test mapping has a left inverse: every test path can be mapped back to its module. |
| Core.MirrorOfSource | src/pytest_mirror/core.py:16-17 | Any path below the tests directory whose name starts with `test_` is the mirror of the module it maps back to. |
| Core.MirrorInjective | src/pytest_mirror/core.py:16-17 | Two different modules never share a test path. |
| Core.MirrorBelowTests | src/pytest_mirror/core.py:17 | Every test path lies strictly inside the tests directory. |
| Core.MirrorNotInit | src/pytest_mirror/core.py:17 | A test module is never named `__init__.py`, so writing one never replaces a package initializer. |
| Core.FindMissing | src/pytest_mirror/core.py:6-20 | The two invalid-directory errors; otherwise every reported path is absent and mirrors an enumerated non-initializer module, and every absent mirror of such a module is reported. |
| Core.FindMissingIsSetDifference | src/pytest_mirror/core.py:12-20 | With a full enumeration, the result lists each mapped test path that does not exist, exactly once and nothing else. |
| Core.FindMissingTests | src/pytest_mirror/core.py:6-20 | The entry point with its own enumeration: it gives the error cases, or the exact duplicate-free set difference. |
| Generator.PreparePackage | src/pytest_mirror/core.py:37-42 | Preparing a test directory fails exactly when a file blocks the path; otherwise the directory chain and its `__init__.py` exist and only those entries are new, with the initializer empty. |
| Generator.Generate | src/pytest_mirror/core.py:23-50 | An invalid package raises before anything is touched. Nothing existing is changed, every new entry is a test directory, initializer or placeholder of an enumerated module, and a well-formed tree stays well formed. A completed run leaves every module done. One `Created` line is printed per placeholder written, each once. "All tests are in place" is printed exactly when the run completes without writing. A failure names a test directory that a file blocks. |
| Generator.GenerateCompletes | src/pytest_mirror/core.py:31-48 | After a completed run over a full enumeration, every module of the package has its test directory, initializer and test module, so every mapped test path exists. |
| Generator.GenerateWritesMapped | src/pytest_mirror/core.py:43-47 | Every placeholder the generator writes sits at a mapped test path of the package. |
| Generator.GenerateMissingTests | src/pytest_mirror/core.py:23-50 | The entry point with its own enumeration: the error cases, no overwrite, completeness on success, writes only at mapped paths, and the printed lines matching the writes. |
| Generator.GenerateIdempotent | src/pytest_mirror/core.py:37-50 | When the package and tests trees are disjoint, a second run after a completed one leaves the filesystem unchanged and prints only "All tests are in place". |
| Generator.NestedTestsNotIdempotent | src/pytest_mirror/core.py:31-36 | Disjointness cannot be dropped from idempotence. Take package `p` holding `a.py`, with tests at `p/t`. The first run writes `p/t/test_a.py`, which is itself a module of `p`. A second run over any full enumeration then either fails or writes `p/t/t/test_test_a.py`, so it is never the all-in-place run. |
| Registry.Flatten | src/pytest_mirror/plugin.py:117 | The flattened list is as long as all sublists together and holds exactly the items of the sublists. |
| Registry.FlattenAppend | src/pytest_mirror/cli.py:25 | Flattening maps concatenation of nested lists to concatenation of flat lists. |
| Registry.FlattenIndex | src/pytest_mirror/cli.py:25 | The k-th item of sublist i sits at the sublists' combined length before i, plus k. |
| Registry.Dispatch | src/pytest_mirror/plugin.py:114-116 | The hook call succeeds exactly when every validator does, returning one list per validator in call order. Otherwise it raises the error of the first validator called that fails. |
| Registry.DispatchAppend | src/pytest_mirror/plugin.py:110-116 | Calling the validators of two registries in sequence concatenates their results. |
| Registry.Missing | src/pytest_mirror/plugin.py:114-117 | The collected missing list exists exactly when no validator raises, and it holds exactly the paths some validator reported. Otherwise the exception raised is that of the first validator called that raises. |
| Registry.ManagerReportsMirror | src/pytest_mirror/plugin_manager.py:9-14 | The hook call on a fresh manager collects exactly what `find_missing_tests` returns for the same directories: its list, or its exception. |
| Registry.MissingOnce | src/pytest_mirror/plugin_manager.py:13 | With the manager's single validator, the collected list is exactly that validator's list. |
| Registry.MissingTwice | src/pytest_mirror/plugin.py:110-117 | A validator registered twice reports its list twice, one copy after the other, and raises exactly when it raises once. |
| Plugin.LowerMatchesIgnoringCase | src/pytest_mirror/plugin.py:162 | Against a target without capitals, lowering and then comparing agrees with a letter-by-letter case-insensitive comparison. |
| Plugin.AutoGenerateConfig | src/pytest_mirror/plugin.py:141-164 | Generation is on when the lookup raises or the key is unset. It is off exactly when the stored text equals `false`, `0` or `no` ignoring case. |
| Plugin.AutoGenerateCaseInsensitive | src/pytest_mirror/plugin.py:162 | The switch does not depend on the letter case of the stored value. |
| Plugin.PathOption | src/pytest_mirror/plugin.py:60-64 | An option is kept exactly when it is a non-empty string or a path object, and it is kept unchanged. |
| Plugin.ChooseDirArg | src/pytest_mirror/plugin.py:66-71 | A kept option wins. Otherwise a non-empty environment variable is used as text, and otherwise nothing is chosen. |
| Plugin.AutoDetectPackageDir | src/pytest_mirror/plugin.py:73-91 | `src/pytest_mirror` has priority, then `pytest_mirror`. Next comes the first listed subdirectory of `src`, then the first listed subdirectory of the root, then the root itself. The result is the root, a child of the root, or a child of `src`. A result picked from a listing is a directory. Detection raises exactly when neither `pytest_mirror` entry exists and a needed listing cannot be taken. That happens when `src` is a regular file, giving NotADirectoryError for `src`. It also happens when `src` offers no subdirectory and the root is missing (FileNotFoundError) or not a directory (NotADirectoryError). |
| Plugin.PluginPrefersSrc | src/pytest_mirror/plugin.py:84-91 | Without either `pytest_mirror` entry and with a complete listing of `src`, any subdirectory of `src` makes the result a subdirectory of `src`, ahead of the root's subdirectories. |
| Plugin.AutoDetectFallsBackToRoot | src/pytest_mirror/plugin.py:73-91 | With complete listings, detection falls back to the root exactly when the root is a directory with no subdirectory, no `pytest_mirror` entry at either place, and no regular file named `src`. |
| Plugin.ResolvePackageDir | src/pytest_mirror/plugin.py:66-93 | A path object or non-empty option string wins, else a non-empty environment variable, else auto-detection. |
| Plugin.ResolveTestsDir | src/pytest_mirror/plugin.py:69-99 | The same precedence for the tests directory, defaulting to `tests` under the project root. |
| Plugin.WritePlaceholders | src/pytest_mirror/plugin.py:124-131 | Nothing existing is changed. New entries are only directories on the way to a listed path, or placeholders at listed paths, and a well-formed tree stays well formed. On success every listed path exists. The written list is exactly the new placeholders, each once. A failure names a listed path's parent that a file blocks. |
| Plugin.WriteTwiceIsWriteOnce | src/pytest_mirror/plugin.py:124-129 | Writing a list followed by itself has exactly the effect of writing it once, because the existence check keeps writes single. |
| Plugin.Decide | src/pytest_mirror/plugin.py:122-136 | An empty list proceeds untouched. The run exits exactly when the list is non-empty and generation is off, and then with code 1, the list, and no change. Otherwise every listed path ends up present, or a directory failure is raised. |
| Plugin.SessionStart | src/pytest_mirror/plugin.py:57-136 | The session never changes existing entries. An exit leaves the filesystem alone with code 1 and a non-empty report. Non-directory errors and disabled generation leave it alone too. Every file it creates is the placeholder and never an `__init__.py`. |
| Plugin.SessionOutcomes | src/pytest_mirror/plugin.py:108-136 | Once the package directory is resolved, the four outcomes follow from `find_missing_tests`: its error propagates, an empty list proceeds, generation off exits with the list doubled, and generation on writes as for the single list. |
| Plugin.SessionGeneratesAll | src/pytest_mirror/plugin.py:122-131 | A session that proceeds leaves every mapped test path of the resolved package in place. |
| Plugin.SessionReportsTwice | src/pytest_mirror/plugin.py:109-117 | With generation off, the report is the missing list twice over, so it always repeats a path. |
| Plugin.SessionOnceReportsEachOnce | src/pytest_mirror/plugin.py:109-111 | With the validator registered once, an exit reports each absent mapped test path exactly once and changes nothing. |
| Cli.DetectDefaultPackageDir | src/pytest_mirror/cli.py:35-58 | The result is the first listed visible subdirectory of `cwd/src`. Failing that, it is the first listed visible subdirectory of cwd other than `src`, and failing that, cwd itself. So the result is the cwd, a child of cwd, or a child of `cwd/src`. Any other result is a visible directory, and a child of cwd is never `src`. Detection fails exactly when cwd is not a directory and `src` offers no visible subdirectory, and the error says which. |
| Cli.DetectPrefersSrc | src/pytest_mirror/cli.py:43-48 | A visible subdirectory of `cwd/src` always wins over the subdirectories of cwd. |
| Cli.DetectFallsBackToCwd | src/pytest_mirror/cli.py:50-58 | On a well-formed tree with complete listings, cwd itself is chosen exactly when it is a directory, `src` has no visible subdirectory, and cwd has no visible subdirectory other than `src`. |
| Cli.ValidateMissingTests | src/pytest_mirror/cli.py:13-32 | The hook's exception propagates unchanged. Otherwise "all in place" is reported exactly when the collected list is empty, and the missing report carries that list. |
| Cli.ValidateReportsMissing | src/pytest_mirror/cli.py:20-32 | With the manager's validator, the report fails exactly when the package is not a directory, with FileNotFoundError for a missing package and NotADirectoryError otherwise. It is "all in place" exactly when every mapped test path exists. Otherwise it lists each absent mapped path once. |
| Cli.Main | src/pytest_mirror/cli.py:61-103 | The default package directory is detected even when one is given, and its failure stops everything. Otherwise exactly the chosen command runs, on the given or default directories. `generate` never overwrites an existing entry. `validate` fails exactly when the package directory is not a directory; it has no filesystem result at all, so it only reads. |

## Left out

- Console output is modelled only as the choice of message. This covers the generator's `Created` and "All tests are in place" lines and the two `validate` reports. The verbose debug prints and the "Using package_dir" lines are not modelled.
- The order of `rglob` and `iterdir` is a parameter. Properties that need a complete enumeration assume one that lists each entry exactly once.
- `rglob` is lazy in Python, so files created during generation could in principle be enumerated later in the same run. The model enumerates a snapshot of the filesystem taken before the loop.
- Operating-system failures other than a regular file blocking `mkdir` are not modelled: permissions, full disks, symbolic links and concurrent changes. That blocked `mkdir` is one error kind, `CannotCreateDir`, and does not distinguish FileExistsError from NotADirectoryError.
- `Path(str)` parsing is a parameter. The current directory, the project root and the environment variables are inputs.
- The `MirrorValidator` class and the hook specification are not part of this model. The validator is taken to return what `find_missing_tests` returns.
- pluggy dispatch: the registry sequence is the order in which the validators are called. pluggy calls the last registered first, and here that only reorders identical sublists. Registration by name is not modelled.
- `pytest_addoption`, `pytest_configure` and argparse parsing are not modelled. Options arrive already parsed, and `pytest.exit` becomes the `Exit` outcome.
- Plugin.Lower: `str.lower` is modelled on the ASCII range only. The result is compared with `false`, `0` and `no`, and no non-ASCII character lowers into those, so the switch is unaffected.
- Generator.GenerateIdempotent: requires the package and tests trees to be disjoint, because idempotence can fail otherwise (Generator.NestedTestsNotIdempotent exhibits a nested layout where it does).
- Cli.DetectDefaultPackageDir: states "not hidden" only for results other than the cwd. The cwd fallback itself may have any name.
- Writing content is modelled as storing a string. No encoding or newline translation is modelled.

## Findings

| source | as written | input that shows it | evidently intended | confidence | as-written member | corrected member |
|---|---|---|---|---|---|---|
| src/pytest_mirror/plugin.py:109-111 | `get_plugin_manager()` already registers a `MirrorValidator`, and line 111 registers a second one unconditionally. The hook therefore returns the missing list twice. | A package holding only `a.py`, no tests directory, `auto-generate = false`: the exit report lists `tests/test_a.py` twice. | Register the validator only if it is not already registered, as the comment on line 109 says, so each missing test is reported once. With generation on, the writes are the same either way (Plugin.WriteTwiceIsWriteOnce). | not executed; high that the report repeats, medium that this is unintended | Plugin.SessionReportsTwice | Plugin.SessionOnceReportsEachOnce |

=== FILE: cli.dfy ===
/**
  The command-line interface (`cli.py`): the default package directory, the
  `validate` report, and `main`'s dispatch to `generate` or `validate`.
 */
module Cli {
  import opened Fs
  import opened Core
  import opened Registry
  import opened Generator

  /** `name.startswith(".")`. */
  predicate Hidden(n: string) {
    |n| > 0 && n[0] == '.'
  }

  function NotHidden(): string -> bool {
    n => !Hidden(n)
  }

  function NotHiddenNorSrc(): string -> bool {
    n => !Hidden(n) && n != "src"
  }

  /**
    `detect_default_package_dir`: the first visible subdirectory of `cwd/src`,
    else the first visible subdirectory of `cwd` other than `src`, else `cwd`.
    `srcNames` and `cwdNames` are what `iterdir` lists.
   */
  function DetectDefaultPackageDir(fs: FileSystem, cwd: Path, srcNames: seq<string>, cwdNames: seq<string>): (r: Result<Path>)
    // the first listed visible subdirectory of `src`, else the first listed one of `cwd` other than `src`, else `cwd`
    ensures IsDir(fs, cwd + ["src"]) && FirstChildDir(fs, cwd + ["src"], srcNames, NotHidden()).Some? ==>
      r == Ok(FirstChildDir(fs, cwd + ["src"], srcNames, NotHidden()).value)
    ensures !(IsDir(fs, cwd + ["src"]) && FirstChildDir(fs, cwd + ["src"], srcNames, NotHidden()).Some?) && IsDir(fs, cwd) ==>
      r == Ok(if FirstChildDir(fs, cwd, cwdNames, NotHiddenNorSrc()).Some? then FirstChildDir(fs, cwd, cwdNames, NotHiddenNorSrc()).value else cwd)
    ensures r.Ok? ==> r.value == cwd || Parent(r.value) == cwd || Parent(r.value) == cwd + ["src"]
    ensures r.Ok? && r.value != cwd ==> IsDir(fs, r.value) && !Hidden(Name(r.value))
    ensures r.Ok? && r.value != cwd && Parent(r.value) == cwd ==> Name(r.value) != "src"
    ensures r.Err? <==> !IsDir(fs, cwd) && !(IsDir(fs, cwd + ["src"]) && FirstChildDir(fs, cwd + ["src"], srcNames, NotHidden()).Some?)
    ensures r.Err? ==> r.error == (if cwd !in fs then NotFound(cwd) else NotADirectory(cwd))
  {
    var src := cwd + ["src"];
    var fromSrc := if IsDir(fs, src) then FirstChildDir(fs, src, srcNames, NotHidden()) else None;
    if fromSrc.Some? then
      ChildShape(fs, src, srcNames, NotHidden());
      assert Parent(src) == cwd;
      Ok(fromSrc.value)
    else if cwd !in fs then Err(NotFound(cwd))
    else if IsFile(fs, cwd) then Err(NotADirectory(cwd))
    else
      match FirstChildDir(fs, cwd, cwdNames, NotHiddenNorSrc())
      case Some(d) =>
        ChildShape(fs, cwd, cwdNames, NotHiddenNorSrc());
        Ok(d)
      case None => Ok(cwd)
  }

  /** The directory a listing search finds is a child of the listed directory, with a name the filter accepts. */
  lemma ChildShape(fs: FileSystem, d: Path, names: seq<string>, keep: string -> bool)
    requires FirstChildDir(fs, d, names, keep).Some?
    ensures var c := FirstChildDir(fs, d, names, keep).value;
      c != d && Parent(c) == d && keep(Name(c)) && IsDir(fs, c)
  {
    var i :| 0 <= i < |names| && FirstChildDir(fs, d, names, keep).value == d + [names[i]] && keep(names[i]);
    assert (d + [names[i]])[..|d|] == d;
  }

  /** With a complete listing of `cwd/src`, a visible subdirectory there always wins. */
  lemma DetectPrefersSrc(fs: FileSystem, cwd: Path, srcNames: seq<string>, cwdNames: seq<string>, c: Path)
    requires ListsChildren(fs, cwd + ["src"], srcNames)
    requires IsDir(fs, cwd + ["src"])
    requires c != [] && Parent(c) == cwd + ["src"] && IsDir(fs, c) && !Hidden(Name(c))
    ensures var r := DetectDefaultPackageDir(fs, cwd, srcNames, cwdNames);
      r.Ok? && Parent(r.value) == cwd + ["src"]
  {
    FirstChildDirComplete(fs, cwd + ["src"], srcNames, NotHidden(), c);
    ChildShape(fs, cwd + ["src"], srcNames, NotHidden());
  }

  /**
    With complete listings of a well-formed tree, `cwd` itself is chosen
    exactly when it is a directory, `cwd/src` holds no visible subdirectory
    and `cwd` holds no visible subdirectory besides `src`.
   */
  lemma DetectFallsBackToCwd(fs: FileSystem, cwd: Path, srcNames: seq<string>, cwdNames: seq<string>)
    requires Valid(fs)
    requires ListsChildren(fs, cwd + ["src"], srcNames) && ListsChildren(fs, cwd, cwdNames)
    ensures DetectDefaultPackageDir(fs, cwd, srcNames, cwdNames) == Ok(cwd) <==>
      && IsDir(fs, cwd)
      && (forall c | c in fs && c != [] && Parent(c) == cwd + ["src"] :: !(IsDir(fs, c) && NotHidden()(Name(c))))
      && (forall c | c in fs && c != [] && Parent(c) == cwd :: !(IsDir(fs, c) && NotHiddenNorSrc()(Name(c))))
  {
    var src := cwd + ["src"];
    FirstChildDirNone(fs, src, srcNames, NotHidden());
    FirstChildDirNone(fs, cwd, cwdNames, NotHiddenNorSrc());
    var fromSrc := FirstChildDir(fs, src, srcNames, NotHidden());
    if fromSrc.Some? {
      ChildShape(fs, src, srcNames, NotHidden());
      assert fromSrc.value != cwd by {
        assert |fromSrc.value| == |cwd| + 2;
      }
    }
    var fromCwd := FirstChildDir(fs, cwd, cwdNames, NotHiddenNorSrc());
    if fromCwd.Some? {
      ChildShape(fs, cwd, cwdNames, NotHiddenNorSrc());
    }
  }

  // ---------------------------------------------------------------------------
  // validate

  /** The two reports `validate_missing_tests` prints. */
  datatype Report = MissingDetected(paths: seq<Path>) | AllInPlace

  /**
    `validate_missing_tests`: asks the registry for missing tests and reports
    them, or that all tests are in place. It only reads the filesystem.
   */
  function ValidateMissingTests(registry: seq<Validator>, pkg: Path, tests: Path): (r: Result<Report>)
    ensures r.Err? <==> Missing(registry, pkg, tests).Err?
    ensures r.Err? ==> r.error == Missing(registry, pkg, tests).error
    ensures r.Ok? ==> (r.value == AllInPlace <==> Missing(registry, pkg, tests).value == [])
    ensures r.Ok? && r.value.MissingDetected? ==> r.value.paths == Missing(registry, pkg, tests).value
  {
    match Missing(registry, pkg, tests)
    case Err(e) => Err(e)
    case Ok(missing) => if missing != [] then Ok(MissingDetected(missing)) else Ok(AllInPlace)
  }

  /**
    With the manager's single mirror validator and a full enumeration, the
    report is "all in place" exactly when every mapped test path exists, and
    otherwise lists each absent mapped path once.
   */
  lemma ValidateReportsMissing(fs: FileSystem, rglob: Path -> seq<Path>, pkg: Path, tests: Path)
    requires Enumerates(rglob(pkg), GlobEntries(fs, pkg))
    ensures var r := ValidateMissingTests(GetPluginManager(MirrorValidator(fs, rglob)), pkg, tests);
      && (r.Err? <==> !IsDir(fs, pkg))
      && (r.Err? ==> r.error == (if pkg !in fs then NotFound(pkg) else NotADirectory(pkg)))
      && (r.Ok? ==> (r.value == AllInPlace <==> forall p | p in MappedPaths(fs, pkg, tests) :: p in fs))
      && (r.Ok? && r.value.MissingDetected? ==>
            && Distinct(r.value.paths)
            && forall p :: p in r.value.paths <==> p in MappedPaths(fs, pkg, tests) && p !in fs)
  {
    MissingOnce(MirrorValidator(fs, rglob), pkg, tests);
    if IsDir(fs, pkg) {
      FindMissingIsSetDifference(fs, pkg, tests, rglob(pkg));
      var m := FindMissing(fs, pkg, tests, rglob(pkg)).value;
      if m != [] {
        assert m[0] in m;
      }
    }
  }

  // ---------------------------------------------------------------------------
  // main

  datatype Command = GenerateCommand | ValidateCommand

  /** The parsed command line: the command and the directories given, if any. */
  datatype CliArgs = CliArgs(command: Command, packageDir: Option<Path>, testsDir: Option<Path>)

  /** What `main` ran: the generator, or the validator's report; or the default detection raised while the parser was built. */
  datatype MainRun = Generated(run: GenRun) | Validated(report: Result<Report>) | DefaultFailed(error: FsError)

  /**
    `main`: the package directory defaults to the detected one (detected even
    when the option is given, because the parser computes its default), the
    tests directory to `cwd/tests`; then exactly one command runs.
   */
  function Main(fs: FileSystem, args: CliArgs, cwd: Path, srcNames: seq<string>, cwdNames: seq<string>,
                rglob: Path -> seq<Path>): (r: MainRun)
    ensures DetectDefaultPackageDir(fs, cwd, srcNames, cwdNames).Err? <==> r.DefaultFailed?
    ensures r.Generated? <==> !r.DefaultFailed? && args.command == GenerateCommand
    ensures r.Validated? <==> !r.DefaultFailed? && args.command == ValidateCommand
    ensures r.Generated? ==> r.run == Generate(fs, MainPackageDir(fs, args, cwd, srcNames, cwdNames),
                                                MainTestsDir(args, cwd), rglob(MainPackageDir(fs, args, cwd, srcNames, cwdNames)))
    ensures r.Validated? ==> r.report == ValidateMissingTests(GetPluginManager(MirrorValidator(fs, rglob)),
                                                              MainPackageDir(fs, args, cwd, srcNames, cwdNames), MainTestsDir(args, cwd))
    // generation never overwrites; validation only reads
    ensures r.Generated? ==> Extends(fs, r.run.fs)
    ensures r.Validated? ==> (r.report.Err? <==> !IsDir(fs, MainPackageDir(fs, args, cwd, srcNames, cwdNames)))
  {
    match DetectDefaultPackageDir(fs, cwd, srcNames, cwdNames)
    case Err(e) => DefaultFailed(e)
    case Ok(_) =>
      var pkg := MainPackageDir(fs, args, cwd, srcNames, cwdNames);
      var tests := MainTestsDir(args, cwd);
      match args.command
      case GenerateCommand => Generated(Generate(fs, pkg, tests, rglob(pkg)))
      case ValidateCommand =>
        MissingOnce(MirrorValidator(fs, rglob), pkg, tests);
        Validated(ValidateMissingTests(GetPluginManager(MirrorValidator(fs, rglob)), pkg, tests))
  }

  /** `--package-dir`, else the detected default. */
  function MainPackageDir(fs: FileSystem, args: CliArgs, cwd: Path, srcNames: seq<string>, cwdNames: seq<string>): Path
    requires DetectDefaultPackageDir(fs, cwd, srcNames, cwdNames).Ok?
  {
    if args.packageDir.Some? then args.packageDir.value else DetectDefaultPackageDir(fs, cwd, srcNames, cwdNames).value
  }

  /** `--tests-dir`, else `cwd/tests`. */
  function MainTestsDir(args: CliArgs, cwd: Path): Path {
    if args.testsDir.Some? then args.testsDir.value else cwd + ["tests"]
  }
}

=== FILE: core.dfy ===
/**
  The mirror resolver of `core.py`: which module files a package directory
  holds, where each one's test module belongs, and which of those test modules
  do not exist yet (`find_missing_tests`).
 */
module Core {
  import opened Fs

  /** The package initializer, never mirrored. */
  const InitFile: string := "__init__.py"

  const TestPrefix: string := "test_"

  /** The body of every generated test module: one test that always fails. */
  const Placeholder: string :=
    "import pytest\n\ndef test_placeholder():\n    assert False, 'This is a placeholder test. Please implement.'\n"

  /** A new regular file holding the placeholder: a test module written since `fs0`. */
  ghost predicate Written(fs0: FileSystem, fs: FileSystem, p: Path) {
    p !in fs0 && p in fs && fs[p] == File(Placeholder)
  }

  /** Matches the glob pattern `*.py`. */
  predicate IsPyName(n: string) {
    |n| >= 3 && n[|n| - 3..] == ".py"
  }

  predicate StartsWith(s: string, prefix: string) {
    |prefix| <= |s| && s[..|prefix|] == prefix
  }

  /**
    What `pkg.rglob("*.py")` yields, each entry made relative to `pkg`:
    files and directories alike, at any depth below `pkg`.
   */
  function GlobEntries(fs: FileSystem, pkg: Path): set<Path> {
    set p | p in fs && IsStrictPrefix(pkg, p) && IsPyName(Name(p)) :: p[|pkg|..]
  }

  lemma GlobEntriesMember(fs: FileSystem, pkg: Path, rel: Path)
    ensures rel in GlobEntries(fs, pkg) <==> rel != [] && pkg + rel in fs && IsPyName(Name(rel))
  {
    if rel != [] && pkg + rel in fs && IsPyName(Name(rel)) {
      var p := pkg + rel;
      assert p[|pkg|..] == rel;
      assert Name(p) == Name(rel);
    }
    if rel in GlobEntries(fs, pkg) {
      var p :| p in fs && IsStrictPrefix(pkg, p) && IsPyName(Name(p)) && p[|pkg|..] == rel;
      assert p == pkg + rel;
    }
  }

  /** A glob entry that is mirrored: anything but the package initializer. */
  predicate IsModule(rel: Path) {
    Name(rel) != InitFile
  }

  /** The module files of `pkg`, relative to it. */
  function ModuleRels(fs: FileSystem, pkg: Path): set<Path> {
    set rel | rel in GlobEntries(fs, pkg) && IsModule(rel)
  }

  /** `tests_dir / relative.parent`: the directory a module's test goes into. */
  function TestDirOf(tests: Path, rel: Path): Path {
    tests + Parent(rel)
  }

  /** `tests_dir / relative.parent / ("test_" + relative.name)`. */
  function MirrorPath(tests: Path, rel: Path): Path {
    TestDirOf(tests, rel) + [TestPrefix + Name(rel)]
  }

  /** Every test path the modules of `pkg` map to. */
  function MappedPaths(fs: FileSystem, pkg: Path, tests: Path): set<Path> {
    set rel | rel in ModuleRels(fs, pkg) :: Mirror(tests)(rel)
  }

  /** The inverse of `MirrorPath`: the module a test path under `tests` mirrors. */
  function SourceOf(tests: Path, t: Path): (r: Option<Path>)
    ensures r.Some? ==> |r.value| > 0 && |r.value| == |t| - |tests|
  {
    if IsStrictPrefix(tests, t) && StartsWith(Name(t), TestPrefix) then
      Some(t[|tests|..|t| - 1] + [Name(t)[|TestPrefix|..]])
    else
      None
  }

  /** The pieces a mirrored path is made of. */
  lemma MirrorPathParts(tests: Path, rel: Path)
    requires rel != []
    ensures var m := MirrorPath(tests, rel);
      && |m| == |tests| + |rel|
      && m[..|tests|] == tests
      && m[|tests|..|m| - 1] == Parent(rel)
      && Name(m) == TestPrefix + Name(rel)
  {
    var m := MirrorPath(tests, rel);
    assert m == tests + (Parent(rel) + [TestPrefix + Name(rel)]);
    assert m[..|tests|] == tests;
    assert m[|tests|..] == Parent(rel) + [TestPrefix + Name(rel)];
    assert m[|tests|..|m| - 1] == m[|tests|..][..|m| - 1 - |tests|];
  }

  /** Mapping a module and mapping back recovers the module. */
  lemma {:induction false} SourceOfMirror(tests: Path, rel: Path)
    requires rel != []
    ensures SourceOf(tests, MirrorPath(tests, rel)) == Some(rel)
  {
    var m := MirrorPath(tests, rel);
    MirrorPathParts(tests, rel);
    var n := TestPrefix + Name(rel);
    assert StartsWith(n, TestPrefix);
    assert n[|TestPrefix|..] == Name(rel);
    assert Parent(rel) + [Name(rel)] == rel;
  }

  /** A test path maps back only to the module whose test path it is. */
  lemma {:induction false} MirrorOfSource(tests: Path, t: Path)
    requires SourceOf(tests, t).Some?
    ensures MirrorPath(tests, SourceOf(tests, t).value) == t
  {
    var rel := SourceOf(tests, t).value;
    var n := Name(t);
    var stem := n[|TestPrefix|..];
    var dir := t[|tests|..|t| - 1];
    assert rel == dir + [stem];
    assert Parent(rel) == dir;
    assert Name(rel) == stem;
    assert TestPrefix + stem == n;
    assert t == t[..|tests|] + dir + [n];
  }

  /** Two distinct modules never share a test path. */
  lemma MirrorInjective(tests: Path, a: Path, b: Path)
    requires a != [] && b != []
    requires MirrorPath(tests, a) == MirrorPath(tests, b)
    ensures a == b
  {
    SourceOfMirror(tests, a);
    SourceOfMirror(tests, b);
  }

  /** Every mirrored path lies below the tests directory, never equal to it. */
  lemma MirrorBelowTests(tests: Path, rel: Path)
    ensures IsStrictPrefix(tests, MirrorPath(tests, rel))
    ensures IsPrefix(tests, TestDirOf(tests, rel))
  {
    assert MirrorPath(tests, rel)[..|tests|] == tests;
    assert TestDirOf(tests, rel)[..|tests|] == tests;
  }

  /** The two checks both core entry points make before touching anything. */
  function CheckPackageDir(fs: FileSystem, pkg: Path): (r: Option<FsError>)
    ensures r == None <==> IsDir(fs, pkg)
    ensures r.Some? ==> (pkg !in fs <==> r.value == NotFound(pkg))
    ensures r.Some? ==> (IsFile(fs, pkg) <==> r.value == NotADirectory(pkg))
  {
    if pkg !in fs then Some(NotFound(pkg))
    else if !fs[pkg].Dir? then Some(NotADirectory(pkg))
    else None
  }

  /** A test module is never named like a package initializer. */
  lemma MirrorNotInit(tests: Path, rel: Path)
    ensures Name(MirrorPath(tests, rel)) != InitFile
  {
    var m := MirrorPath(tests, rel);
    assert Name(m) == TestPrefix + Name(rel);
    assert Name(m)[0] == 't' && InitFile[0] == '_';
  }

  /** `MirrorPath` for a fixed tests directory, as a function value. */
  function Mirror(tests: Path): Path -> Path {
    rel => MirrorPath(tests, rel)
  }

  /**
    The loop of `find_missing_tests`, with the path mapping `f` abstracted:
    the images under `f` of the modules in `walk` that `fs` lacks, in walk order.
   */
  function AbsentImages(fs: FileSystem, f: Path -> Path, walk: seq<Path>): (r: seq<Path>)
    ensures |r| <= |walk|
    ensures forall k | 0 <= k < |r| ::
      r[k] !in fs && exists i | 0 <= i < |walk| :: IsModule(walk[i]) && r[k] == f(walk[i])
    ensures forall i | 0 <= i < |walk| && IsModule(walk[i]) && f(walk[i]) !in fs :: f(walk[i]) in r
  {
    if walk == [] then []
    else
      var rest := AbsentImages(fs, f, walk[1..]);
      assert forall i | 1 <= i < |walk| :: walk[i] == walk[1..][i - 1];
      if IsModule(walk[0]) && f(walk[0]) !in fs then [f(walk[0])] + rest else rest
  }

  /** An injective mapping of distinct entries yields each absent image once. */
  lemma {:induction false} AbsentImagesDistinct(fs: FileSystem, f: Path -> Path, walk: seq<Path>)
    requires Distinct(walk)
    requires forall a, b | a in walk && b in walk && f(a) == f(b) :: a == b
    ensures Distinct(AbsentImages(fs, f, walk))
  {
    if walk != [] {
      var tail := walk[1..];
      assert forall a | a in tail :: a in walk;
      assert Distinct(tail) by {
        forall i, j | 0 <= i < j < |tail|
          ensures tail[i] != tail[j]
        {
          assert tail[i] == walk[i + 1] && tail[j] == walk[j + 1];
        }
      }
      AbsentImagesDistinct(fs, f, tail);
      var rest := AbsentImages(fs, f, tail);
      if IsModule(walk[0]) && f(walk[0]) !in fs {
        forall k | 0 <= k < |rest|
          ensures rest[k] != f(walk[0])
        {
          var j :| 0 <= j < |tail| && IsModule(tail[j]) && rest[k] == f(tail[j]);
          assert tail[j] == walk[j + 1];
          assert walk[0] != tail[j];
        }
        DistinctCons(f(walk[0]), rest);
      }
    }
  }

  lemma DistinctCons(x: Path, s: seq<Path>)
    requires Distinct(s)
    requires forall k | 0 <= k < |s| :: s[k] != x
    ensures Distinct([x] + s)
  {
    var t := [x] + s;
    forall i, j | 0 <= i < j < |t|
      ensures t[i] != t[j]
    {
      assert t[j] == s[j - 1];
      if i > 0 {
        assert t[i] == s[i - 1];
      }
    }
  }

  /**
    `find_missing_tests(pkg, tests)` given the entries `pkg.rglob("*.py")`
    enumerates, in the order `walk` lists them. Reads `fs` and never changes it.
   */
  function FindMissing(fs: FileSystem, pkg: Path, tests: Path, walk: seq<Path>): (r: Result<seq<Path>>)
    ensures r.Err? <==> !IsDir(fs, pkg)
    ensures r.Err? ==> r.error == (if pkg !in fs then NotFound(pkg) else NotADirectory(pkg))
    ensures r.Ok? ==> forall k | 0 <= k < |r.value| ::
      r.value[k] !in fs && exists i | 0 <= i < |walk| :: IsModule(walk[i]) && r.value[k] == Mirror(tests)(walk[i])
    ensures r.Ok? ==> forall i | 0 <= i < |walk| && IsModule(walk[i]) && Mirror(tests)(walk[i]) !in fs ::
      Mirror(tests)(walk[i]) in r.value
  {
    match CheckPackageDir(fs, pkg)
    case Some(e) => Err(e)
    case None => Ok(AbsentImages(fs, Mirror(tests), walk))
  }

  /**
    With `walk` the full rglob enumeration, `find_missing_tests` returns exactly
    the mapped test paths that do not exist, each once.
   */
  lemma FindMissingIsSetDifference(fs: FileSystem, pkg: Path, tests: Path, walk: seq<Path>)
    requires IsDir(fs, pkg)
    requires Enumerates(walk, GlobEntries(fs, pkg))
    ensures FindMissing(fs, pkg, tests, walk).Ok?
    ensures var r := FindMissing(fs, pkg, tests, walk).value;
      && Distinct(r)
      && (forall p :: p in r <==> p in MappedPaths(fs, pkg, tests) && p !in fs)
  {
    var r := FindMissing(fs, pkg, tests, walk).value;
    forall i | 0 <= i < |walk|
      ensures walk[i] != []
    {
      GlobEntriesMember(fs, pkg, walk[i]);
    }
    var f := Mirror(tests);
    forall a, b | a in walk && b in walk && f(a) == f(b)
      ensures a == b
    {
      MirrorInjective(tests, a, b);
    }
    AbsentImagesDistinct(fs, f, walk);
    forall p
      ensures p in r <==> p in MappedPaths(fs, pkg, tests) && p !in fs
    {
      if p in r {
        var k :| 0 <= k < |r| && r[k] == p;
        var i :| 0 <= i < |walk| && IsModule(walk[i]) && r[k] == f(walk[i]);
        assert walk[i] in ModuleRels(fs, pkg);
      }
      if p in MappedPaths(fs, pkg, tests) && p !in fs {
        var rel :| rel in ModuleRels(fs, pkg) && p == f(rel);
        var i :| 0 <= i < |walk| && walk[i] == rel;
      }
    }
  }

  /** One concrete enumeration of `pkg.rglob("*.py")`, in an unspecified order. */
  method RGlob(fs: FileSystem, pkg: Path) returns (walk: seq<Path>)
    ensures Enumerates(walk, GlobEntries(fs, pkg))
  {
    var all := GlobEntries(fs, pkg);
    var rest := all;
    walk := [];
    while rest != {}
      invariant rest <= all
      invariant Distinct(walk)
      invariant forall i | 0 <= i < |walk| :: walk[i] in all && walk[i] !in rest
      invariant forall x | x in all :: x in rest || x in walk
      decreases rest
    {
      var x :| x in rest;
      walk := walk + [x];
      rest := rest - {x};
    }
  }

  /** `find_missing_tests(package_dir, tests_dir)`, with its own rglob enumeration. */
  method FindMissingTests(fs: FileSystem, pkg: Path, tests: Path) returns (r: Result<seq<Path>>)
    ensures pkg !in fs ==> r == Err(NotFound(pkg))
    ensures IsFile(fs, pkg) ==> r == Err(NotADirectory(pkg))
    ensures IsDir(fs, pkg) ==> r.Ok?
    ensures r.Ok? ==> Distinct(r.value)
    ensures r.Ok? ==> forall p :: p in r.value <==> p in MappedPaths(fs, pkg, tests) && p !in fs
  {
    var walk := RGlob(fs, pkg);
    r := FindMissing(fs, pkg, tests, walk);
    if IsDir(fs, pkg) {
      FindMissingIsSetDifference(fs, pkg, tests, walk);
    }
  }
}

=== FILE: fs.dfy ===
/**
  An abstract filesystem snapshot: a finite map from absolute paths (sequences
  of path components; `[]` is the root) to nodes. It is the state the mirror
  operations read and, in write mode, extend.
 */
module Fs {

  type Path = seq<string>

  datatype Node = File(content: string) | Dir

  type FileSystem = map<Path, Node>

  datatype Option<T> = None | Some(value: T)

  /** The exception kinds the modelled code raises. */
  datatype FsError =
    | NotFound(path: Path)          // FileNotFoundError
    | NotADirectory(path: Path)     // NotADirectoryError
    | CannotCreateDir(path: Path)   // mkdir blocked by a regular file on the way

  datatype Result<T> = Ok(value: T) | Err(error: FsError)

  /** Last component (`Path.name`); the root has the empty name. */
  function Name(p: Path): string {
    if p == [] then "" else p[|p| - 1]
  }

  /** `Path.parent`; the root is its own parent. */
  function Parent(p: Path): Path {
    if p == [] then [] else p[..|p| - 1]
  }

  predicate IsPrefix(a: Path, b: Path) {
    |a| <= |b| && b[..|a|] == a
  }

  predicate IsStrictPrefix(a: Path, b: Path) {
    |a| < |b| && b[..|a|] == a
  }

  predicate IsDir(fs: FileSystem, p: Path) {
    p in fs && fs[p].Dir?
  }

  predicate IsFile(fs: FileSystem, p: Path) {
    p in fs && fs[p].File?
  }

  /** A well-formed tree: every non-root entry sits in a directory. */
  ghost predicate Valid(fs: FileSystem) {
    forall p | p in fs && p != [] :: IsDir(fs, Parent(p))
  }

  /** `fs'` keeps every entry of `fs` with its content: nothing was overwritten or removed. */
  ghost predicate Extends(fs: FileSystem, fs': FileSystem) {
    forall p | p in fs :: p in fs' && fs'[p] == fs[p]
  }

  predicate Distinct<T(==)>(s: seq<T>) {
    forall i, j | 0 <= i < j < |s| :: s[i] != s[j]
  }

  /** `s` lists every element of `set` exactly once, in some order. */
  ghost predicate Enumerates<T>(s: seq<T>, xs: set<T>) {
    && Distinct(s)
    && (forall i | 0 <= i < |s| :: s[i] in xs)
    && (forall x | x in xs :: x in s)
  }

  /** `names` is a directory listing of `d`: each child name exactly once. */
  ghost predicate ListsChildren(fs: FileSystem, d: Path, names: seq<string>) {
    && Distinct(names)
    && (forall i | 0 <= i < |names| :: d + [names[i]] in fs)
    && (forall p | p in fs && p != [] && Parent(p) == d :: Name(p) in names)
  }

  /** Every ancestor of `d`, `d` itself and the root included. */
  function Prefixes(d: Path): (r: set<Path>)
    ensures forall p :: p in r <==> IsPrefix(p, d)
  {
    assert forall p | IsPrefix(p, d) :: p == d[..|p|];
    set i | 0 <= i <= |d| :: d[..i]
  }

  /** Every ancestor of `d`, and `d` itself, is a directory of `fs`. */
  ghost predicate DirChain(fs: FileSystem, d: Path) {
    forall i | 0 <= i <= |d| :: IsDir(fs, d[..i])
  }

  /** Some ancestor of `d`, or `d` itself, is a regular file of `fs`. */
  predicate FileOnChain(fs: FileSystem, d: Path) {
    exists i | 0 <= i <= |d| :: IsFile(fs, d[..i])
  }

  /**
    `Path.mkdir(parents=True, exist_ok=True)`: creates every missing ancestor
    of `d` and `d` itself; fails when any of them is a regular file.
   */
  function MkdirParents(fs: FileSystem, d: Path): (r: Result<FileSystem>)
    ensures r.Err? <==> FileOnChain(fs, d)
    ensures r.Err? ==> r.error == CannotCreateDir(d)
    ensures r.Ok? ==> DirChain(r.value, d)
    ensures r.Ok? ==> Extends(fs, r.value)
    ensures r.Ok? ==> forall p | p in r.value && p !in fs :: IsPrefix(p, d) && r.value[p] == Dir
  {
    if FileOnChain(fs, d) then
      Err(CannotCreateDir(d))
    else
      var fs' := fs + map p | p in Prefixes(d) && p !in fs :: Dir;
      assert forall i | 0 <= i <= |d| :: IsPrefix(d[..i], d);
      Ok(fs')
  }

  /** `mkdir(parents=True, exist_ok=True)` on an existing directory chain changes nothing. */
  lemma MkdirExisting(fs: FileSystem, d: Path)
    requires DirChain(fs, d)
    ensures MkdirParents(fs, d) == Ok(fs)
  {
    assert !FileOnChain(fs, d);
    var m := map p | p in Prefixes(d) && p !in fs :: Dir;
    forall p | p in Prefixes(d)
      ensures p in fs
    {
      assert p == d[..|p|];
    }
    assert m.Keys == {};
    assert fs + m == fs;
  }

  /** A directory chain survives any change that overwrites nothing. */
  lemma DirChainExtends(fs: FileSystem, fs': FileSystem, d: Path)
    requires DirChain(fs, d) && Extends(fs, fs')
    ensures DirChain(fs', d)
  {
  }

  lemma PrefixOfPrefix(a: Path, b: Path, c: Path)
    requires IsPrefix(a, b) && IsPrefix(b, c)
    ensures IsPrefix(a, c)
  {
    assert c[..|b|][..|a|] == c[..|a|];
  }

  /** Two ancestors of one path are comparable. */
  lemma PrefixesComparable(a: Path, b: Path, c: Path)
    requires IsPrefix(a, c) && IsPrefix(b, c)
    ensures IsPrefix(a, b) || IsPrefix(b, a)
  {
    if |a| <= |b| {
      assert c[..|b|][..|a|] == c[..|a|];
    } else {
      assert c[..|a|][..|b|] == c[..|b|];
    }
  }

  /** Creating directories keeps the tree well formed. */
  lemma MkdirParentsValid(fs: FileSystem, d: Path)
    requires Valid(fs)
    requires MkdirParents(fs, d).Ok?
    ensures Valid(MkdirParents(fs, d).value)
  {
    var fs' := MkdirParents(fs, d).value;
    forall p | p in fs' && p != []
      ensures IsDir(fs', Parent(p))
    {
      if p !in fs {
        assert IsPrefix(p, d);
        assert IsPrefix(Parent(p), p);
        PrefixOfPrefix(Parent(p), p, d);
      }
    }
  }

  /** Writing a new file into an existing directory keeps the tree well formed. */
  lemma WriteValid(fs: FileSystem, p: Path, n: Node)
    requires Valid(fs)
    requires p != [] && IsDir(fs, Parent(p)) && p !in fs
    ensures Valid(fs[p := n])
  {
  }

  /**
    The first entry of a directory listing that is itself a directory and whose
    name `keep` accepts: `[d / n for n in names if (d / n).is_dir() and keep(n)][0]`.
   */
  function FirstChildDir(fs: FileSystem, d: Path, names: seq<string>, keep: string -> bool): (r: Option<Path>)
    ensures r.None? <==> forall i | 0 <= i < |names| :: !(IsDir(fs, d + [names[i]]) && keep(names[i]))
    ensures r.Some? ==> exists i | 0 <= i < |names| ::
      && r.value == d + [names[i]] && IsDir(fs, r.value) && keep(names[i])
      && forall j | 0 <= j < i :: !(IsDir(fs, d + [names[j]]) && keep(names[j]))
  {
    if names == [] then None
    else if IsDir(fs, d + [names[0]]) && keep(names[0]) then Some(d + [names[0]])
    else
      var rest := FirstChildDir(fs, d, names[1..], keep);
      assert forall i | 1 <= i < |names| :: names[i] == names[1..][i - 1];
      if rest.Some? then
        var i :| 0 <= i < |names[1..]| && rest.value == d + [names[1..][i]] && IsDir(fs, rest.value) && keep(names[1..][i])
          && forall j | 0 <= j < i :: !(IsDir(fs, d + [names[1..][j]]) && keep(names[1..][j]));
        assert names[i + 1] == names[1..][i];
        rest
      else rest
  }

  /** With a complete listing, finding nothing means `d` has no qualifying child directory at all. */
  lemma FirstChildDirComplete(fs: FileSystem, d: Path, names: seq<string>, keep: string -> bool, c: Path)
    requires ListsChildren(fs, d, names)
    requires c != [] && Parent(c) == d && IsDir(fs, c) && keep(Name(c))
    ensures FirstChildDir(fs, d, names, keep).Some?
  {
    var i :| 0 <= i < |names| && names[i] == Name(c);
    assert c == d + [Name(c)];
  }

  /** With a complete listing, finding nothing is the same as `d` having no qualifying child directory. */
  lemma FirstChildDirNone(fs: FileSystem, d: Path, names: seq<string>, keep: string -> bool)
    requires ListsChildren(fs, d, names)
    ensures FirstChildDir(fs, d, names, keep).None? <==>
      forall c | c in fs && c != [] && Parent(c) == d :: !(IsDir(fs, c) && keep(Name(c)))
  {
    if FirstChildDir(fs, d, names, keep).None? {
      forall c | c in fs && c != [] && Parent(c) == d
        ensures !(IsDir(fs, c) && keep(Name(c)))
      {
        if IsDir(fs, c) && keep(Name(c)) {
          FirstChildDirComplete(fs, d, names, keep, c);
        }
      }
    } else {
      forall i | 0 <= i < |names|
        ensures var c := d + [names[i]]; c != [] && Parent(c) == d && Name(c) == names[i]
      {
        assert (d + [names[i]])[..|d|] == d;
      }
    }
  }
}

=== FILE: generator.dfy ===
/**
  `generate_missing_tests` of `core.py`: mirrors the package into the tests
  tree, creating each module's test directory (with a package initializer) and
  a placeholder test module wherever none exists. Modelled as a state
  transformer over the filesystem, folded over the rglob enumeration.
 */
module Generator {
  import opened Fs
  import opened Core

  /** What the generator prints. */
  datatype Message = Created(path: Path) | AllTestsInPlace

  /** The outcome of one generation run: the resulting filesystem, the printed lines, the exception raised if any. */
  datatype GenRun = GenRun(fs: FileSystem, log: seq<Message>, failure: Option<FsError>)

  /** Where one module's test goes: its test directory and its test module. */
  datatype Target = Target(dir: Path, file: Path)

  function TargetOf(tests: Path): Path -> Target {
    rel => Target(TestDirOf(tests, rel), MirrorPath(tests, rel))
  }

  /** A test module directly inside its test directory, never named like an initializer. */
  predicate WellShaped(t: Target) {
    t.file != [] && Parent(t.file) == t.dir && Name(t.file) != InitFile
  }

  lemma TargetOfWellShaped(tests: Path, rel: Path)
    ensures WellShaped(TargetOf(tests)(rel))
  {
    var t := TargetOf(tests)(rel);
    assert t.file == t.dir + [TestPrefix + Name(rel)];
    assert Parent(t.file) == t.dir;
    assert Name(t.file) == TestPrefix + Name(rel);
    assert Name(t.file)[0] == 't';
  }

  function InitOf(dir: Path): Path {
    dir + [InitFile]
  }

  /** The loop state: the filesystem, `created_dirs`, the lines printed so far, and the pending exception. */
  datatype GenState = GenState(fs: FileSystem, createdDirs: set<Path>, log: seq<Message>, failure: Option<FsError>)

  /** `mkdir(parents=True, exist_ok=True)` on the test directory, then `touch` its `__init__.py` if missing. */
  function PreparePackage(fs: FileSystem, dir: Path): (r: Result<FileSystem>)
    ensures r.Err? <==> FileOnChain(fs, dir)
    ensures r.Err? ==> r.error == CannotCreateDir(dir)
    ensures r.Ok? ==> Extends(fs, r.value) && DirChain(r.value, dir) && InitOf(dir) in r.value
    ensures r.Ok? ==> forall p | p in r.value && p !in fs ::
      (IsPrefix(p, dir) && r.value[p] == Dir) || (p == InitOf(dir) && r.value[p] == File(""))
  {
    match MkdirParents(fs, dir)
    case Err(e) => Err(e)
    case Ok(fs1) =>
      var init := InitOf(dir);
      if init in fs1 then Ok(fs1) else Ok(fs1[init := File("")])
  }

  /** The directory part of one iteration: skipped for a directory already prepared in this run. */
  function Prepared(fs: FileSystem, createdDirs: set<Path>, dir: Path): Result<FileSystem> {
    if dir in createdDirs then Ok(fs) else PreparePackage(fs, dir)
  }

  /** One iteration of the loop, for a module whose test goes to `t`. */
  function Step(st: GenState, t: Target): GenState {
    if st.failure.Some? then st
    else
      match Prepared(st.fs, st.createdDirs, t.dir)
      case Err(e) => st.(failure := Some(e))
      case Ok(fs1) =>
        var dirs := st.createdDirs + {t.dir};
        if t.file in fs1 then GenState(fs1, dirs, st.log, None)
        else GenState(fs1[t.file := File(Placeholder)], dirs, st.log + [Created(t.file)], None)
  }

  /** The loop over the enumerated entries; initializers are skipped, a raised exception ends it. */
  function Run(st: GenState, g: Path -> Target, walk: seq<Path>): GenState
    decreases |walk|
  {
    if walk == [] then st
    else Run(if IsModule(walk[0]) then Step(st, g(walk[0])) else st, g, walk[1..])
  }

  /** The state after the loop, seen as a run's result; the final message is printed only when nothing was written. */
  function Finish(st: GenState): GenRun {
    GenRun(st.fs, if st.failure.None? && st.log == [] then [AllTestsInPlace] else st.log, st.failure)
  }

  // ---------------------------------------------------------------------------
  // The loop invariant

  /** A new entry is one the loop may create for one of the targets `ts`. */
  ghost predicate NewEntryFor(ts: set<Target>, p: Path, n: Node) {
    exists t | t in ts ::
      || (IsPrefix(p, t.dir) && n == Dir)
      || (p == InitOf(t.dir) && n == File(""))
      || (p == t.file && n == File(Placeholder))
  }

  /** What the loop may have changed so far: only additions, each for some target. */
  ghost predicate FrameInv(fs0: FileSystem, ts: set<Target>, fs: FileSystem) {
    && Extends(fs0, fs)
    && (forall p | p in fs && p !in fs0 :: NewEntryFor(ts, p, fs[p]))
    && (Valid(fs0) ==> Valid(fs))
  }

  /** Every directory in `created_dirs` exists with its whole chain and its initializer. */
  ghost predicate DirsInv(fs: FileSystem, dirs: set<Path>) {
    forall d | d in dirs :: DirChain(fs, d) && InitOf(d) in fs
  }

  /** The printed lines are exactly the test modules written, each once. */
  ghost predicate LogInv(fs0: FileSystem, fs: FileSystem, log: seq<Message>) {
    && (forall i | 0 <= i < |log| :: log[i].Created? && Written(fs0, fs, log[i].path))
    && (forall p | Written(fs0, fs, p) :: Created(p) in log)
    && Distinct(log)
  }

  ghost predicate FailInv(ts: set<Target>, st: GenState) {
    st.failure.Some? ==> exists t | t in ts :: st.failure.value == CannotCreateDir(t.dir) && FileOnChain(st.fs, t.dir)
  }

  ghost predicate Inv(fs0: FileSystem, ts: set<Target>, st: GenState) {
    && FrameInv(fs0, ts, st.fs)
    && DirsInv(st.fs, st.createdDirs)
    && LogInv(fs0, st.fs, st.log)
    && FailInv(ts, st)
  }
  /** A target whose test directory, initializer and test module all exist. */
  ghost predicate Done(fs: FileSystem, t: Target) {
    DirChain(fs, t.dir) && InitOf(t.dir) in fs && t.file in fs
  }

  lemma InitialInv(fs0: FileSystem, ts: set<Target>)
    ensures Inv(fs0, ts, GenState(fs0, {}, [], None))
  {
  }

  lemma ParentOfChild(d: Path, n: string)
    ensures Parent(d + [n]) == d && Name(d + [n]) == n && d + [n] != []
  {
    assert (d + [n])[..|d|] == d;
  }

  /** Preparing a test directory keeps the tree well formed. */
  lemma PreparePackageValid(fs: FileSystem, dir: Path)
    requires Valid(fs) && PreparePackage(fs, dir).Ok?
    ensures Valid(PreparePackage(fs, dir).value)
  {
    MkdirParentsValid(fs, dir);
    var fsm := MkdirParents(fs, dir).value;
    if InitOf(dir) !in fsm {
      assert IsDir(fsm, dir) by {
        assert dir[..|dir|] == dir;
      }
      ParentOfChild(dir, InitFile);
      WriteValid(fsm, InitOf(dir), File(""));
    }
  }

  /** The directory part of a step only adds entries the frame allows. */
  lemma PreparedFrame(fs0: FileSystem, ts: set<Target>, fs: FileSystem, dirs: set<Path>, t: Target)
    requires FrameInv(fs0, ts, fs) && t in ts
    requires Prepared(fs, dirs, t.dir).Ok?
    ensures FrameInv(fs0, ts, Prepared(fs, dirs, t.dir).value)
  {
    if t.dir !in dirs {
      var fs1 := PreparePackage(fs, t.dir).value;
      if Valid(fs0) {
        PreparePackageValid(fs, t.dir);
      }
      forall p | p in fs1 && p !in fs0
        ensures NewEntryFor(ts, p, fs1[p])
      {
        if p !in fs {
          assert (IsPrefix(p, t.dir) && fs1[p] == Dir) || (p == InitOf(t.dir) && fs1[p] == File(""));
        }
      }
    }
  }

  /** The directory part of a step keeps `created_dirs` truthful and writes no test module. */
  lemma PreparedDirs(fs0: FileSystem, fs: FileSystem, dirs: set<Path>, dir: Path)
    requires DirsInv(fs, dirs)
    requires Prepared(fs, dirs, dir).Ok?
    ensures var fs1 := Prepared(fs, dirs, dir).value;
      && DirsInv(fs1, dirs + {dir})
      && Extends(fs, fs1)
      && (forall p | Written(fs0, fs1, p) :: Written(fs0, fs, p))
  {
    var fs1 := Prepared(fs, dirs, dir).value;
    if dir !in dirs {
      forall d | d in dirs
        ensures DirChain(fs1, d)
      {
        DirChainExtends(fs, fs1, d);
      }
    }
  }

  /** Writing the placeholder keeps the invariant. */
  lemma WriteInv(fs0: FileSystem, ts: set<Target>, fs1: FileSystem, dirs: set<Path>, log: seq<Message>, t: Target)
    requires FrameInv(fs0, ts, fs1) && DirsInv(fs1, dirs) && t in ts && WellShaped(t) && t.dir in dirs
    requires LogInv(fs0, fs1, log) && t.file !in fs1
    ensures var fs2 := fs1[t.file := File(Placeholder)];
      && FrameInv(fs0, ts, fs2)
      && DirsInv(fs2, dirs)
      && LogInv(fs0, fs2, log + [Created(t.file)])
  {
    var fs2 := fs1[t.file := File(Placeholder)];
    var log' := log + [Created(t.file)];
    assert Extends(fs1, fs2);
    forall d | d in dirs
      ensures DirChain(fs2, d)
    {
      DirChainExtends(fs1, fs2, d);
    }
    if Valid(fs0) {
      assert IsDir(fs1, t.dir) by {
        assert t.dir[..|t.dir|] == t.dir;
      }
      WriteValid(fs1, t.file, File(Placeholder));
    }
    forall i | 0 <= i < |log'|
      ensures log'[i].Created? && Written(fs0, fs2, log'[i].path)
    {
      if i < |log| {
        assert log'[i] == log[i];
      }
    }
    forall p | Written(fs0, fs2, p)
      ensures Created(p) in log'
    {
      if p != t.file {
        assert Written(fs0, fs1, p);
      }
    }
    DistinctSnoc(log, Created(t.file));
  }

  /** One step keeps the invariant and, unless it raised, completes its target. */
  lemma StepInv(fs0: FileSystem, ts: set<Target>, st: GenState, t: Target)
    requires Inv(fs0, ts, st) && t in ts && WellShaped(t)
    ensures Inv(fs0, ts, Step(st, t))
    ensures Step(st, t).failure.None? ==> Done(Step(st, t).fs, t) && st.failure.None?
    ensures Extends(st.fs, Step(st, t).fs)
  {
    if st.failure.None? {
      var prepared := Prepared(st.fs, st.createdDirs, t.dir);
      if prepared.Ok? {
        var fs1 := prepared.value;
        PreparedFrame(fs0, ts, st.fs, st.createdDirs, t);
        PreparedDirs(fs0, st.fs, st.createdDirs, t.dir);
        var dirs := st.createdDirs + {t.dir};
        assert LogInv(fs0, fs1, st.log) by {
          forall i | 0 <= i < |st.log|
            ensures Written(fs0, fs1, st.log[i].path)
          {
          }
        }
        if t.file !in fs1 {
          WriteInv(fs0, ts, fs1, dirs, st.log, t);
          DirChainExtends(fs1, fs1[t.file := File(Placeholder)], t.dir);
        }
      } else {
        assert FileOnChain(st.fs, t.dir);
      }
    }
  }

  lemma DoneExtends(fs: FileSystem, fs': FileSystem, t: Target)
    requires Done(fs, t) && Extends(fs, fs')
    ensures Done(fs', t)
  {
    DirChainExtends(fs, fs', t.dir);
  }

  /** The loop keeps the invariant; if it ran to the end, every module's target is complete. */
  lemma {:induction false} RunInv(fs0: FileSystem, ts: set<Target>, st: GenState, g: Path -> Target, walk: seq<Path>)
    requires Inv(fs0, ts, st)
    requires forall i | 0 <= i < |walk| && IsModule(walk[i]) :: g(walk[i]) in ts && WellShaped(g(walk[i]))
    ensures Inv(fs0, ts, Run(st, g, walk))
    ensures Extends(st.fs, Run(st, g, walk).fs)
    ensures Run(st, g, walk).failure.None? ==> st.failure.None?
    ensures Run(st, g, walk).failure.None? ==>
      forall i | 0 <= i < |walk| && IsModule(walk[i]) :: Done(Run(st, g, walk).fs, g(walk[i]))
    decreases |walk|
  {
    if walk != [] {
      var st1 := if IsModule(walk[0]) then Step(st, g(walk[0])) else st;
      if IsModule(walk[0]) {
        StepInv(fs0, ts, st, g(walk[0]));
      }
      var tail := walk[1..];
      assert forall i | 0 <= i < |tail| :: tail[i] == walk[i + 1];
      RunInv(fs0, ts, st1, g, tail);
      var r := Run(st1, g, tail);
      assert r == Run(st, g, walk);
      if r.failure.None? {
        forall i | 0 <= i < |walk| && IsModule(walk[i])
          ensures Done(r.fs, g(walk[i]))
        {
          if i == 0 {
            DoneExtends(st1.fs, r.fs, g(walk[0]));
          } else {
            assert walk[i] == tail[i - 1];
          }
        }
      }
    }
  }

  lemma DistinctSnoc(s: seq<Message>, x: Message)
    requires Distinct(s)
    requires forall i | 0 <= i < |s| :: s[i] != x
    ensures Distinct(s + [x])
  {
  }

  /** What the printed lines of a run say, given the loop invariant. */
  lemma FinishLog(fs0: FileSystem, ts: set<Target>, st: GenState)
    requires Inv(fs0, ts, st)
    ensures var r := Finish(st);
      && (forall p :: Created(p) in r.log <==> Written(fs0, r.fs, p))
      && Distinct(r.log)
      && (AllTestsInPlace in r.log <==> r.failure.None? && forall p :: !Written(fs0, r.fs, p))
  {
    var r := Finish(st);
    forall p
      ensures Created(p) in r.log <==> Written(fs0, r.fs, p)
    {
      if Created(p) in r.log {
        var i :| 0 <= i < |r.log| && r.log[i] == Created(p);
        assert r.log == st.log;
      }
    }
    if st.log != [] {
      assert Written(fs0, st.fs, st.log[0].path);
      assert AllTestsInPlace !in st.log;
    }
  }

  /** The loop, started on `fs`, for the modules of `walk`. */
  function Loop(fs: FileSystem, tests: Path, walk: seq<Path>): GenState {
    Run(GenState(fs, {}, [], None), TargetOf(tests), walk)
  }

  lemma {:induction false} LoopInv(fs: FileSystem, tests: Path, walk: seq<Path>)
    ensures Inv(fs, Targets(tests, walk), Loop(fs, tests, walk))
    ensures Loop(fs, tests, walk).failure.None? ==>
      forall i | 0 <= i < |walk| && IsModule(walk[i]) :: Done(Loop(fs, tests, walk).fs, TargetOf(tests)(walk[i]))
  {
    var ts := Targets(tests, walk);
    var g := TargetOf(tests);
    InitialInv(fs, ts);
    forall i | 0 <= i < |walk| && IsModule(walk[i])
      ensures g(walk[i]) in ts && WellShaped(g(walk[i]))
    {
      TargetOfWellShaped(tests, walk[i]);
    }
    RunInv(fs, ts, GenState(fs, {}, [], None), g, walk);
  }

  // ---------------------------------------------------------------------------
  // generate_missing_tests

  /** The targets of the modules among the enumerated entries. */
  ghost function Targets(tests: Path, walk: seq<Path>): set<Target> {
    set i | 0 <= i < |walk| && IsModule(walk[i]) :: TargetOf(tests)(walk[i])
  }

  /**
    `generate_missing_tests(pkg, tests)` given the entries `pkg.rglob("*.py")`
    enumerates, in the order `walk` lists them.
   */
  function Generate(fs: FileSystem, pkg: Path, tests: Path, walk: seq<Path>): (r: GenRun)
    // an invalid package directory is reported before anything is touched
    ensures pkg !in fs ==> r == GenRun(fs, [], Some(NotFound(pkg)))
    ensures IsFile(fs, pkg) ==> r == GenRun(fs, [], Some(NotADirectory(pkg)))
    // nothing is overwritten or removed; only the listed kinds of entries appear
    ensures Extends(fs, r.fs)
    ensures forall p | p in r.fs && p !in fs :: NewEntryFor(Targets(tests, walk), p, r.fs[p])
    ensures Valid(fs) ==> Valid(r.fs)
    // a completed run leaves every module with its test directory, initializer and test module
    ensures r.failure.None? ==> IsDir(fs, pkg)
    ensures r.failure.None? ==> forall i | 0 <= i < |walk| && IsModule(walk[i]) ::
      Done(r.fs, TargetOf(tests)(walk[i]))
    // the printed lines: one per test module written, else the all-in-place line
    ensures forall p :: Created(p) in r.log <==> Written(fs, r.fs, p)
    ensures Distinct(r.log)
    ensures AllTestsInPlace in r.log <==> r.failure.None? && forall p :: !Written(fs, r.fs, p)
    ensures r.failure.Some? && IsDir(fs, pkg) ==>
      exists t | t in Targets(tests, walk) :: r.failure.value == CannotCreateDir(t.dir) && FileOnChain(r.fs, t.dir)
  {
    match CheckPackageDir(fs, pkg)
    case Some(e) => GenRun(fs, [], Some(e))
    case None =>
      LoopInv(fs, tests, walk);
      FinishLog(fs, Targets(tests, walk), Loop(fs, tests, walk));
      Finish(Loop(fs, tests, walk))
  }

  /** Both views of a module's test module agree. */
  lemma TargetFileIsMirror(tests: Path, rel: Path)
    ensures TargetOf(tests)(rel).file == Mirror(tests)(rel)
    ensures TargetOf(tests)(rel).dir == TestDirOf(tests, rel)
  {
  }

  /** A completed run over a full enumeration leaves every module of the package with its test. */
  lemma GenerateCompletes(fs: FileSystem, pkg: Path, tests: Path, walk: seq<Path>)
    requires Enumerates(walk, GlobEntries(fs, pkg))
    requires Generate(fs, pkg, tests, walk).failure.None?
    ensures var r := Generate(fs, pkg, tests, walk);
      && (forall rel | rel in ModuleRels(fs, pkg) :: Done(r.fs, TargetOf(tests)(rel)))
      && (forall p | p in MappedPaths(fs, pkg, tests) :: p in r.fs)
  {
    var r := Generate(fs, pkg, tests, walk);
    forall rel | rel in ModuleRels(fs, pkg)
      ensures Done(r.fs, TargetOf(tests)(rel))
    {
      var i :| 0 <= i < |walk| && walk[i] == rel;
    }
    forall p | p in MappedPaths(fs, pkg, tests)
      ensures p in r.fs
    {
      var rel :| rel in ModuleRels(fs, pkg) && p == Mirror(tests)(rel);
      TargetFileIsMirror(tests, rel);
      assert Done(r.fs, TargetOf(tests)(rel));
    }
  }

  /** Every test module a run writes is the mirror of one of the package's modules. */
  lemma GenerateWritesMapped(fs: FileSystem, pkg: Path, tests: Path, walk: seq<Path>)
    requires Enumerates(walk, GlobEntries(fs, pkg))
    ensures var r := Generate(fs, pkg, tests, walk);
      forall p | Written(fs, r.fs, p) :: p in MappedPaths(fs, pkg, tests)
  {
    var r := Generate(fs, pkg, tests, walk);
    forall p | Written(fs, r.fs, p)
      ensures p in MappedPaths(fs, pkg, tests)
    {
      assert NewEntryFor(Targets(tests, walk), p, r.fs[p]);
      var t :| t in Targets(tests, walk) && (|| (IsPrefix(p, t.dir) && r.fs[p] == Dir)
                                             || (p == InitOf(t.dir) && r.fs[p] == File(""))
                                             || (p == t.file && r.fs[p] == File(Placeholder)));
      assert p == t.file;
      var i :| 0 <= i < |walk| && IsModule(walk[i]) && t == TargetOf(tests)(walk[i]);
      assert walk[i] in ModuleRels(fs, pkg);
      TargetFileIsMirror(tests, walk[i]);
    }
  }

  /** `generate_missing_tests(package_dir, tests_dir)`, with its own rglob enumeration. */
  method GenerateMissingTests(fs: FileSystem, pkg: Path, tests: Path) returns (r: GenRun)
    ensures pkg !in fs ==> r == GenRun(fs, [], Some(NotFound(pkg)))
    ensures IsFile(fs, pkg) ==> r == GenRun(fs, [], Some(NotADirectory(pkg)))
    ensures Extends(fs, r.fs)
    ensures r.failure.None? ==> forall rel | rel in ModuleRels(fs, pkg) :: Done(r.fs, TargetOf(tests)(rel))
    ensures r.failure.None? ==> forall p | p in MappedPaths(fs, pkg, tests) :: p in r.fs
    ensures forall p | Written(fs, r.fs, p) :: p in MappedPaths(fs, pkg, tests)
    ensures forall p :: Created(p) in r.log <==> Written(fs, r.fs, p)
    ensures AllTestsInPlace in r.log <==> r.failure.None? && forall p :: !Written(fs, r.fs, p)
  {
    var walk := RGlob(fs, pkg);
    r := Generate(fs, pkg, tests, walk);
    if r.failure.None? {
      GenerateCompletes(fs, pkg, tests, walk);
    }
    GenerateWritesMapped(fs, pkg, tests, walk);
  }

  // ---------------------------------------------------------------------------
  // Running the generator twice

  /** Neither directory lies inside the other. */
  predicate Disjoint(a: Path, b: Path) {
    !IsPrefix(a, b) && !IsPrefix(b, a)
  }

  /** Everything a run adds lies on the way to, or inside, the tests directory. */
  lemma {:induction false} NewEntriesNearTests(fs: FileSystem, pkg: Path, tests: Path, walk: seq<Path>)
    ensures var r := Generate(fs, pkg, tests, walk);
      forall k | k in r.fs && k !in fs :: IsPrefix(tests, k) || IsPrefix(k, tests)
  {
    var r := Generate(fs, pkg, tests, walk);
    forall k | k in r.fs && k !in fs
      ensures IsPrefix(tests, k) || IsPrefix(k, tests)
    {
      assert NewEntryFor(Targets(tests, walk), k, r.fs[k]);
      var t :| t in Targets(tests, walk) && (|| (IsPrefix(k, t.dir) && r.fs[k] == Dir)
                                             || (k == InitOf(t.dir) && r.fs[k] == File(""))
                                             || (k == t.file && r.fs[k] == File(Placeholder)));
      var i :| 0 <= i < |walk| && IsModule(walk[i]) && t == TargetOf(tests)(walk[i]);
      MirrorBelowTests(tests, walk[i]);
      if IsPrefix(k, t.dir) {
        PrefixesComparable(k, tests, t.dir);
      } else {
        assert IsPrefix(t.dir, k) by {
          assert k[..|t.dir|] == t.dir;
        }
        PrefixOfPrefix(tests, t.dir, k);
      }
    }
  }

  /** Additions near a tests directory disjoint from the package do not change what rglob sees in it. */
  lemma GlobUnchanged(fs: FileSystem, fs1: FileSystem, pkg: Path, tests: Path)
    requires Extends(fs, fs1) && Disjoint(pkg, tests)
    requires forall k | k in fs1 && k !in fs :: IsPrefix(tests, k) || IsPrefix(k, tests)
    ensures GlobEntries(fs1, pkg) == GlobEntries(fs, pkg)
  {
    forall rel
      ensures rel in GlobEntries(fs1, pkg) <==> rel in GlobEntries(fs, pkg)
    {
      GlobEntriesMember(fs, pkg, rel);
      GlobEntriesMember(fs1, pkg, rel);
      var k := pkg + rel;
      if k in fs1 && k !in fs {
        assert IsPrefix(pkg, k) by {
          assert k[..|pkg|] == pkg;
        }
        if IsPrefix(tests, k) {
          PrefixesComparable(pkg, tests, k);
        } else {
          PrefixOfPrefix(pkg, k, tests);
        }
      }
    }
  }

  /** A step for a target already complete changes neither the filesystem nor the output. */
  lemma StepDone(st: GenState, t: Target)
    requires st.failure.None? && Done(st.fs, t)
    ensures var st' := Step(st, t);
      st'.fs == st.fs && st'.log == st.log && st'.failure.None?
  {
    if t.dir !in st.createdDirs {
      MkdirExisting(st.fs, t.dir);
    }
  }

  /** A loop over modules whose targets are all complete changes nothing. */
  lemma {:induction false} RunDone(st: GenState, g: Path -> Target, walk: seq<Path>)
    requires st.failure.None?
    requires forall i | 0 <= i < |walk| && IsModule(walk[i]) :: Done(st.fs, g(walk[i]))
    ensures var st' := Run(st, g, walk);
      st'.fs == st.fs && st'.log == st.log && st'.failure.None?
    decreases |walk|
  {
    if walk != [] {
      var st1 := if IsModule(walk[0]) then Step(st, g(walk[0])) else st;
      if IsModule(walk[0]) {
        StepDone(st, g(walk[0]));
      }
      var tail := walk[1..];
      assert forall i | 0 <= i < |tail| :: tail[i] == walk[i + 1];
      RunDone(st1, g, tail);
    }
  }

  /**
    Idempotence: when the tests directory and the package are disjoint, a
    second run after a completed one writes nothing and reports every test in place.
   */
  lemma GenerateIdempotent(fs: FileSystem, pkg: Path, tests: Path, walk: seq<Path>, walk2: seq<Path>)
    requires Disjoint(pkg, tests)
    requires Enumerates(walk, GlobEntries(fs, pkg))
    requires Generate(fs, pkg, tests, walk).failure.None?
    requires Enumerates(walk2, GlobEntries(Generate(fs, pkg, tests, walk).fs, pkg))
    ensures var fs1 := Generate(fs, pkg, tests, walk).fs;
      Generate(fs1, pkg, tests, walk2) == GenRun(fs1, [AllTestsInPlace], None)
  {
    var fs1 := Generate(fs, pkg, tests, walk).fs;
    NewEntriesNearTests(fs, pkg, tests, walk);
    GlobUnchanged(fs, fs1, pkg, tests);
    GenerateCompletes(fs, pkg, tests, walk);
    forall i | 0 <= i < |walk2| && IsModule(walk2[i])
      ensures Done(fs1, TargetOf(tests)(walk2[i]))
    {
      assert walk2[i] in ModuleRels(fs, pkg);
    }
    RunDone(GenState(fs1, {}, [], None), TargetOf(tests), walk2);
    assert IsDir(fs1, pkg);
  }

  /** A package `p` holding one module `a.py`. */
  function NestedFs(): FileSystem {
    map[[] := Dir, ["p"] := Dir, ["p", "a.py"] := File("")]
  }

  /** Module `a.py` of package `p` has its test at `p/t/test_a.py`. */
  lemma NestedTarget()
    ensures TargetOf(["p", "t"])(["a.py"]) == Target(["p", "t"], ["p", "t", "test_a.py"])
  {
    assert Parent(["a.py"]) == [];
    assert TestPrefix + Name(["a.py"]) == "test_a.py";
  }

  /** The one step of the first run creates `p/t`, its initializer and `p/t/test_a.py`. */
  lemma NestedStep()
    ensures var st1 := Step(GenState(NestedFs(), {}, [], None), Target(["p", "t"], ["p", "t", "test_a.py"]));
      && st1.failure.None?
      && st1.log == [Created(["p", "t", "test_a.py"])]
      && ["p", "t", "test_a.py"] in st1.fs
  {
    var fs := NestedFs();
    var t := Target(["p", "t"], ["p", "t", "test_a.py"]);
    assert !FileOnChain(fs, t.dir) by {
      forall i | 0 <= i <= |t.dir|
        ensures !IsFile(fs, t.dir[..i])
      {
        if i == 0 {
          assert t.dir[..i] == [];
        } else if i == 1 {
          assert t.dir[..i] == ["p"];
        } else {
          assert t.dir[..i] == ["p", "t"];
        }
      }
    }
    var fs1 := PreparePackage(fs, t.dir).value;
    assert t.file !in fs1 by {
      assert t.file !in fs;
      assert t.file[2][0] == 't' && InitOf(t.dir)[2][0] == '_';
    }
  }

  /** The first run with the tests directory at `p/t`, inside the package, writes `p/t/test_a.py` and nothing deeper. */
  lemma NestedFirstRun()
    ensures var r1 := Generate(NestedFs(), ["p"], ["p", "t"], [["a.py"]]);
      && r1.failure.None?
      && r1.log == [Created(["p", "t", "test_a.py"])]
      && ["p", "t", "test_a.py"] in r1.fs
      && ["p", "t", "t", "test_test_a.py"] !in r1.fs
  {
    var fs := NestedFs();
    var tests: Path := ["p", "t"];
    var rel: Path := ["a.py"];
    var t := Target(["p", "t"], ["p", "t", "test_a.py"]);
    NestedTarget();
    NestedStep();
    assert Run(GenState(fs, {}, [], None), TargetOf(tests), [rel])
        == Run(Step(GenState(fs, {}, [], None), t), TargetOf(tests), []) by {
      assert [rel][1..] == [];
    }
    assert IsDir(fs, ["p"]);
    var r1 := Generate(fs, ["p"], tests, [rel]);
    assert Targets(tests, [rel]) == {t};
    var q: Path := ["p", "t", "t", "test_test_a.py"];
    assert q !in fs;
  }

  /** A completed run has written the test module of every enumerated module. */
  lemma GenerateCoversEntry(fs: FileSystem, pkg: Path, tests: Path, walk: seq<Path>, rel: Path)
    requires rel in walk && IsModule(rel)
    requires Generate(fs, pkg, tests, walk).failure.None?
    ensures MirrorPath(tests, rel) in Generate(fs, pkg, tests, walk).fs
  {
    var j :| 0 <= j < |walk| && walk[j] == rel;
    assert Done(Generate(fs, pkg, tests, walk).fs, TargetOf(tests)(walk[j]));
  }

  /** In the tests directory `p/t`, the test module `t/test_a.py` of package `p` mirrors to `p/t/t/test_test_a.py`. */
  lemma NestedMirror()
    ensures IsModule(["t", "test_a.py"])
    ensures MirrorPath(["p", "t"], ["t", "test_a.py"]) == ["p", "t", "t", "test_test_a.py"]
  {
    var rel: Path := ["t", "test_a.py"];
    assert Name(rel) == "test_a.py";
    assert Name(rel)[0] == 't' && InitFile[0] == '_';
    assert Parent(rel) == ["t"];
    assert TestPrefix + Name(rel) == "test_test_a.py";
  }

  /** Once `p/t/test_a.py` exists, a run over a full enumeration of `p` writes `p/t/t/test_test_a.py`. */
  lemma NestedSecondRun(fs1: FileSystem, walk2: seq<Path>)
    requires ["p", "t", "test_a.py"] in fs1 && ["p", "t", "t", "test_test_a.py"] !in fs1
    requires Enumerates(walk2, GlobEntries(fs1, ["p"]))
    ensures var r2 := Generate(fs1, ["p"], ["p", "t"], walk2);
      && (r2.failure.None? ==> ["p", "t", "t", "test_test_a.py"] in r2.fs)
      && r2 != GenRun(fs1, [AllTestsInPlace], None)
  {
    var pkg: Path := ["p"];
    var rel2: Path := ["t", "test_a.py"];
    assert pkg + rel2 == ["p", "t", "test_a.py"];
    assert IsPyName(Name(rel2)) by {
      assert Name(rel2) == "test_a.py";
    }
    GlobEntriesMember(fs1, pkg, rel2);
    NestedMirror();
    if Generate(fs1, pkg, ["p", "t"], walk2).failure.None? {
      GenerateCoversEntry(fs1, pkg, ["p", "t"], walk2, rel2);
      assert Generate(fs1, pkg, ["p", "t"], walk2).fs != fs1;
    }
  }

  /**
    Without disjointness idempotence fails: with the tests directory inside the
    package, the first run's test module is itself a module of the package, so
    a second run, whatever its enumeration order, mirrors it again.
   */
  lemma NestedTestsNotIdempotent(walk2: seq<Path>)
    requires Enumerates(walk2, GlobEntries(Generate(NestedFs(), ["p"], ["p", "t"], [["a.py"]]).fs, ["p"]))
    ensures var r1 := Generate(NestedFs(), ["p"], ["p", "t"], [["a.py"]]);
      var r2 := Generate(r1.fs, ["p"], ["p", "t"], walk2);
      && r1.failure.None?
      && (r2.failure.None? ==> ["p", "t", "t", "test_test_a.py"] in r2.fs.Keys - r1.fs.Keys)
      && r2 != GenRun(r1.fs, [AllTestsInPlace], None)
  {
    NestedFirstRun();
    NestedSecondRun(Generate(NestedFs(), ["p"], ["p", "t"], [["a.py"]]).fs, walk2);
  }
}

=== FILE: plugin.dfy ===
/**
  The session-start hook of the pytest plugin (`plugin.py`): resolving the
  package and tests directories from option, environment variable or
  auto-detection, reading the auto-generate switch, asking the validator
  registry for missing tests, and then either writing placeholders or
  aborting the run.
 */
module Plugin {
  import opened Fs
  import opened Core
  import opened Registry

  // ---------------------------------------------------------------------------
  // The auto-generate switch

  /** What `config.inicfg.get("tool.pytest-mirror.auto-generate")` yields: `str()` of a stored value, nothing, or an exception. */
  datatype IniLookup = Raises | Unset | Stored(text: string)

  /** The values that switch generation off, compared after lowering. */
  const DisablingValues: set<string> := {"false", "0", "no"}

  predicate IsUpper(c: char) {
    'A' <= c <= 'Z'
  }

  predicate IsLetter(c: char) {
    IsUpper(c) || 'a' <= c <= 'z'
  }

  function LowerChar(c: char): char {
    if IsUpper(c) then (c as int + 32) as char else c
  }

  /** `str.lower()` on the ASCII range; every other character is kept. */
  function Lower(s: string): (r: string)
    ensures forall i | 0 <= i < |r| :: !IsUpper(r[i])
    ensures EqualsIgnoringCase(s, r)
  {
    seq(|s|, i requires 0 <= i < |s| => LowerChar(s[i]))
  }

  /** Two characters are the same letter in either case, or simply equal. */
  predicate SameIgnoringCase(c: char, d: char) {
    c == d || (IsLetter(c) && IsLetter(d) && (c as int - d as int == 32 || d as int - c as int == 32))
  }

  /** A case-insensitive comparison defined letter by letter, independently of `Lower`. */
  predicate EqualsIgnoringCase(a: string, b: string) {
    |a| == |b| && forall i | 0 <= i < |a| :: SameIgnoringCase(a[i], b[i])
  }

  /** `str(raw_value)`: an unset key is `None`. */
  function IniText(v: IniLookup): string
    requires !v.Raises?
  {
    if v.Unset? then "None" else v.text
  }

  /** `_get_auto_generate_config`: on unless the stored value, lowered, is one of the disabling values. */
  function AutoGenerateConfig(v: IniLookup): (r: bool)
    ensures v.Raises? || v.Unset? ==> r
    ensures !r <==> v.Stored? && exists w | w in DisablingValues :: EqualsIgnoringCase(v.text, w)
  {
    if v.Raises? then true
    else
      var lowered := Lower(IniText(v));
      LowerMatchesIgnoringCase(IniText(v), "false");
      LowerMatchesIgnoringCase(IniText(v), "0");
      LowerMatchesIgnoringCase(IniText(v), "no");
      assert v.Unset? ==> lowered == "none";
      lowered !in DisablingValues
  }

  /** Against a target with no capital letters, lowering and then comparing is a case-insensitive comparison. */
  lemma LowerMatchesIgnoringCase(s: string, w: string)
    requires forall i | 0 <= i < |w| :: !IsUpper(w[i])
    ensures Lower(s) == w <==> EqualsIgnoringCase(s, w)
  {
    if EqualsIgnoringCase(s, w) {
      forall i | 0 <= i < |s|
        ensures Lower(s)[i] == w[i]
      {
        if s[i] != w[i] {
          assert IsUpper(s[i]);
        }
      }
    }
    if Lower(s) == w {
      forall i | 0 <= i < |s|
        ensures SameIgnoringCase(s[i], w[i])
      {
        assert LowerChar(s[i]) == w[i];
      }
    }
  }

  /** The switch does not depend on letter case. */
  lemma AutoGenerateCaseInsensitive(s: string, t: string)
    requires EqualsIgnoringCase(s, t)
    ensures AutoGenerateConfig(Stored(s)) == AutoGenerateConfig(Stored(t))
  {
    assert forall i | 0 <= i < |s| :: LowerChar(s[i]) == LowerChar(t[i]) by {
      forall i | 0 <= i < |s|
        ensures LowerChar(s[i]) == LowerChar(t[i])
      {
        assert SameIgnoringCase(s[i], t[i]);
      }
    }
    assert Lower(s) == Lower(t);
  }

  // ---------------------------------------------------------------------------
  // Choosing the directories

  /** What `config.getoption(...)` yields for a directory option. */
  datatype OptionValue = NoValue | Flag(flag: bool) | Text(s: string) | PathValue(p: Path) | Other

  /** A directory argument before `Path(...)` is applied: text, or already a path object. */
  datatype DirArg = TextArg(s: string) | PathArg(p: Path)

  /** `_get_path_option`: keeps a non-empty string or any path object, drops everything else. */
  function PathOption(v: OptionValue): (r: Option<DirArg>)
    ensures r.Some? <==> (v.Text? && v.s != "") || v.PathValue?
    ensures r.Some? ==> (r.value.TextArg? <==> v.Text?)
    ensures r.Some? && v.Text? ==> r.value.s == v.s
    ensures r.Some? && v.PathValue? ==> r.value.p == v.p
  {
    match v
    case Text(s) => if s != "" then Some(TextArg(s)) else None
    case PathValue(p) => Some(PathArg(p))
    case _ => None
  }

  /**
    `_get_path_option(option) or os.environ.get(name)`, read as the `if not`
    test that follows reads it: `None` means auto-detect.
   */
  function ChooseDirArg(option: OptionValue, env: Option<string>): (r: Option<DirArg>)
    ensures PathOption(option).Some? ==> r == PathOption(option)
    ensures PathOption(option).None? ==> (r.Some? <==> env.Some? && env.value != "")
    ensures PathOption(option).None? && r.Some? ==> r.value == TextArg(env.value)
  {
    match PathOption(option)
    case Some(a) => Some(a)
    case None => if env.Some? && env.value != "" then Some(TextArg(env.value)) else None
  }

  /** `Path(arg)`; parsing text into a path is the platform's business and is passed in. */
  function ToPath(a: DirArg, parse: string -> Path): Path {
    match a
    case TextArg(s) => parse(s)
    case PathArg(p) => p
  }

  function AnyName(): string -> bool {
    n => true
  }

  /**
    The auto-detection of the package directory under the project root:
    `src/pytest_mirror` if it exists, else `pytest_mirror`, else the first
    subdirectory of `src`, else the first subdirectory of the root, else the
    root itself. `srcNames` and `rootNames` are what `iterdir` lists.
   */
  function AutoDetectPackageDir(fs: FileSystem, root: Path, srcNames: seq<string>, rootNames: seq<string>): (r: Result<Path>)
    ensures root + ["src", "pytest_mirror"] in fs ==> r == Ok(root + ["src", "pytest_mirror"])
    ensures root + ["src", "pytest_mirror"] !in fs && root + ["pytest_mirror"] in fs ==> r == Ok(root + ["pytest_mirror"])
    // otherwise a subdirectory of `src` comes before one of the root
    ensures && root + ["src", "pytest_mirror"] !in fs && root + ["pytest_mirror"] !in fs
            && IsDir(fs, root + ["src"]) && FirstChildDir(fs, root + ["src"], srcNames, AnyName()).Some? ==>
      r == Ok(FirstChildDir(fs, root + ["src"], srcNames, AnyName()).value)
    ensures && root + ["src", "pytest_mirror"] !in fs && root + ["pytest_mirror"] !in fs
            && (root + ["src"] !in fs || (IsDir(fs, root + ["src"]) && FirstChildDir(fs, root + ["src"], srcNames, AnyName()).None?))
            && IsDir(fs, root) ==>
      r == Ok(if FirstChildDir(fs, root, rootNames, AnyName()).Some? then FirstChildDir(fs, root, rootNames, AnyName()).value else root)
    ensures r.Ok? ==> r.value == root || Parent(r.value) == root || Parent(r.value) == root + ["src"]
    ensures r.Ok? && r.value != root ==> r.value in fs
    // a subdirectory picked from a listing is a directory
    ensures r.Ok? && r.value != root && r.value != root + ["src", "pytest_mirror"] && r.value != root + ["pytest_mirror"] ==>
      IsDir(fs, r.value)
    // it raises exactly when a listing it needs cannot be taken
    ensures r.Err? <==>
      && root + ["src", "pytest_mirror"] !in fs && root + ["pytest_mirror"] !in fs
      && (|| IsFile(fs, root + ["src"])
          || ((root + ["src"] !in fs || FirstChildDir(fs, root + ["src"], srcNames, AnyName()).None?) && !IsDir(fs, root)))
    ensures r.Err? && IsFile(fs, root + ["src"]) ==> r.error == NotADirectory(root + ["src"])
    ensures r.Err? && !IsFile(fs, root + ["src"]) ==> r.error == (if root !in fs then NotFound(root) else NotADirectory(root))
  {
    var srcPkg := root + ["src", "pytest_mirror"];
    var flat := root + ["pytest_mirror"];
    var src := root + ["src"];
    assert Parent(srcPkg) == src && Parent(flat) == root;
    if srcPkg in fs then Ok(srcPkg)
    else if flat in fs then Ok(flat)
    else if IsFile(fs, src) then Err(NotADirectory(src))
    else
      var fromSrc := if src in fs then FirstChildDir(fs, src, srcNames, AnyName()) else None;
      if fromSrc.Some? then
        ParentOfChildDir(fs, src, srcNames, AnyName());
        Ok(fromSrc.value)
      else if root !in fs then Err(NotFound(root))
      else if IsFile(fs, root) then Err(NotADirectory(root))
      else
        match FirstChildDir(fs, root, rootNames, AnyName())
        case Some(d) =>
          ParentOfChildDir(fs, root, rootNames, AnyName());
          Ok(d)
        case None => Ok(root)
  }

  /**
    With a complete listing of `root/src`, and neither `pytest_mirror` entry
    present, a subdirectory of `src` always wins over the root's subdirectories.
   */
  lemma PluginPrefersSrc(fs: FileSystem, root: Path, srcNames: seq<string>, rootNames: seq<string>, c: Path)
    requires ListsChildren(fs, root + ["src"], srcNames)
    requires root + ["src", "pytest_mirror"] !in fs && root + ["pytest_mirror"] !in fs
    requires IsDir(fs, root + ["src"])
    requires c != [] && Parent(c) == root + ["src"] && IsDir(fs, c)
    ensures var r := AutoDetectPackageDir(fs, root, srcNames, rootNames);
      r.Ok? && Parent(r.value) == root + ["src"] && IsDir(fs, r.value)
  {
    FirstChildDirComplete(fs, root + ["src"], srcNames, AnyName(), c);
    ParentOfChildDir(fs, root + ["src"], srcNames, AnyName());
  }

  lemma ParentOfChildDir(fs: FileSystem, d: Path, names: seq<string>, keep: string -> bool)
    requires FirstChildDir(fs, d, names, keep).Some?
    ensures Parent(FirstChildDir(fs, d, names, keep).value) == d
  {
    var i :| 0 <= i < |names| && FirstChildDir(fs, d, names, keep).value == d + [names[i]];
    assert (d + [names[i]])[..|d|] == d;
  }

  /**
    With complete listings, auto-detection falls back to the project root
    exactly when the root is a directory with no subdirectory at all and no
    `pytest_mirror` or `src/pytest_mirror` entry, and no regular file named `src`.
   */
  lemma AutoDetectFallsBackToRoot(fs: FileSystem, root: Path, srcNames: seq<string>, rootNames: seq<string>)
    requires ListsChildren(fs, root, rootNames) && ListsChildren(fs, root + ["src"], srcNames)
    ensures AutoDetectPackageDir(fs, root, srcNames, rootNames) == Ok(root) <==>
      && IsDir(fs, root)
      && root + ["src", "pytest_mirror"] !in fs && root + ["pytest_mirror"] !in fs
      && !IsFile(fs, root + ["src"])
      && forall c | c in fs && c != [] && Parent(c) == root :: !IsDir(fs, c)
  {
    var r := AutoDetectPackageDir(fs, root, srcNames, rootNames);
    var src := root + ["src"];
    var flat := root + ["pytest_mirror"];
    assert Parent(flat) == root && flat != root;
    assert (root + ["src", "pytest_mirror"]) != root;
    if r == Ok(root) {
      forall c | c in fs && c != [] && Parent(c) == root
        ensures !IsDir(fs, c)
      {
        if IsDir(fs, c) {
          FirstChildDirComplete(fs, root, rootNames, AnyName(), c);
        }
      }
    }
    if && IsDir(fs, root)
       && root + ["src", "pytest_mirror"] !in fs && flat !in fs
       && !IsFile(fs, src)
       && forall c | c in fs && c != [] && Parent(c) == root :: !IsDir(fs, c)
    {
      assert Parent(src) == root;
      assert !IsDir(fs, src);
      assert FirstChildDir(fs, root, rootNames, AnyName()).None?;
    }
  }

  /** The project's `--mirror-*` options, environment variables and ini lookup, as the session sees them. */
  datatype SessionConfig = SessionConfig(
    root: Path,
    packageOption: OptionValue,
    testsOption: OptionValue,
    packageEnv: Option<string>,   // PYTEST_MIRROR_PACKAGE_DIR
    testsEnv: Option<string>,     // PYTEST_MIRROR_TESTS_DIR
    ini: IniLookup,
    noGenerate: bool)             // --mirror-no-generate

  /** A command-line value `_get_path_option` keeps: a non-empty string or a path object. */
  predicate UsableOption(v: OptionValue) {
    (v.Text? && v.s != "") || v.PathValue?
  }

  /**
    The package directory: a usable option wins, else a non-empty environment
    variable, else auto-detection under the project root.
   */
  function ResolvePackageDir(fs: FileSystem, cfg: SessionConfig, parse: string -> Path,
                             srcNames: seq<string>, rootNames: seq<string>): (r: Result<Path>)
    ensures cfg.packageOption.PathValue? ==> r == Ok(cfg.packageOption.p)
    ensures cfg.packageOption.Text? && cfg.packageOption.s != "" ==> r == Ok(parse(cfg.packageOption.s))
    ensures !UsableOption(cfg.packageOption) && cfg.packageEnv.Some? && cfg.packageEnv.value != "" ==>
      r == Ok(parse(cfg.packageEnv.value))
    ensures !UsableOption(cfg.packageOption) && (cfg.packageEnv.None? || cfg.packageEnv.value == "") ==>
      r == AutoDetectPackageDir(fs, cfg.root, srcNames, rootNames)
  {
    match ChooseDirArg(cfg.packageOption, cfg.packageEnv)
    case Some(a) => Ok(ToPath(a, parse))
    case None => AutoDetectPackageDir(fs, cfg.root, srcNames, rootNames)
  }

  /** The tests directory: a usable option wins, else a non-empty environment variable, else `tests` under the project root. */
  function ResolveTestsDir(cfg: SessionConfig, parse: string -> Path): (r: Path)
    ensures cfg.testsOption.PathValue? ==> r == cfg.testsOption.p
    ensures cfg.testsOption.Text? && cfg.testsOption.s != "" ==> r == parse(cfg.testsOption.s)
    ensures !UsableOption(cfg.testsOption) && cfg.testsEnv.Some? && cfg.testsEnv.value != "" ==>
      r == parse(cfg.testsEnv.value)
    ensures !UsableOption(cfg.testsOption) && (cfg.testsEnv.None? || cfg.testsEnv.value == "") ==>
      r == cfg.root + ["tests"]
  {
    match ChooseDirArg(cfg.testsOption, cfg.testsEnv)
    case Some(a) => ToPath(a, parse)
    case None => cfg.root + ["tests"]
  }

  // ---------------------------------------------------------------------------
  // Writing placeholders for the missing list

  /** The loop over the missing list: the filesystem, the paths written so far, the pending exception. */
  datatype WriteState = WriteState(fs: FileSystem, written: seq<Path>, failure: Option<FsError>)

  /** One iteration: create the parent directories, then write the placeholder if the path does not exist. */
  function PlaceOne(st: WriteState, p: Path): WriteState {
    if st.failure.Some? then st
    else
      match MkdirParents(st.fs, Parent(p))
      case Err(e) => st.(failure := Some(e))
      case Ok(fs1) =>
        if p in fs1 then WriteState(fs1, st.written, None)
        else WriteState(fs1[p := File(Placeholder)], st.written + [p], None)
  }

  function PlaceAll(st: WriteState, paths: seq<Path>): WriteState
    decreases |paths|
  {
    if paths == [] then st else PlaceAll(PlaceOne(st, paths[0]), paths[1..])
  }

  /** A new entry the loop may create for the paths `ps`: a directory on the way to one's parent, or one of them with the placeholder. */
  ghost predicate PlacedEntry(ps: set<Path>, k: Path, n: Node) {
    exists p | p in ps :: (IsPrefix(k, Parent(p)) && n == Dir) || (k == p && n == File(Placeholder))
  }

  /** Only additions, each one the loop may make for the paths `ps`. */
  ghost predicate PlaceFrame(fs0: FileSystem, ps: set<Path>, fs: FileSystem) {
    && Extends(fs0, fs)
    && (forall k | k in fs && k !in fs0 :: PlacedEntry(ps, k, fs[k]))
    && (Valid(fs0) ==> Valid(fs))
  }

  /** `written` lists exactly the placeholders written since `fs0`, each once, each one of `ps`. */
  ghost predicate WrittenList(fs0: FileSystem, ps: set<Path>, fs: FileSystem, written: seq<Path>) {
    && (forall i | 0 <= i < |written| :: Written(fs0, fs, written[i]) && written[i] in ps)
    && (forall p | Written(fs0, fs, p) :: p in written)
    && Distinct(written)
  }

  ghost predicate PlaceInv(fs0: FileSystem, ps: set<Path>, st: WriteState) {
    && PlaceFrame(fs0, ps, st.fs)
    && WrittenList(fs0, ps, st.fs, st.written)
    && (st.failure.Some? ==> exists p | p in ps :: st.failure.value == CannotCreateDir(Parent(p)) && FileOnChain(st.fs, Parent(p)))
  }

  /** A path whose parent chain and itself exist: the loop has nothing left to do for it. */
  ghost predicate Placed(fs: FileSystem, p: Path) {
    DirChain(fs, Parent(p)) && p in fs
  }

  lemma PlaceDirsFrame(fs0: FileSystem, ps: set<Path>, fs: FileSystem, p: Path)
    requires PlaceFrame(fs0, ps, fs) && p in ps
    requires MkdirParents(fs, Parent(p)).Ok?
    ensures PlaceFrame(fs0, ps, MkdirParents(fs, Parent(p)).value)
  {
    var fs1 := MkdirParents(fs, Parent(p)).value;
    if Valid(fs0) {
      MkdirParentsValid(fs, Parent(p));
    }
    forall k | k in fs1 && k !in fs0
      ensures PlacedEntry(ps, k, fs1[k])
    {
      if k !in fs {
        assert IsPrefix(k, Parent(p)) && fs1[k] == Dir;
      }
    }
  }

  lemma PlaceDirsWritten(fs0: FileSystem, ps: set<Path>, fs: FileSystem, written: seq<Path>, d: Path)
    requires WrittenList(fs0, ps, fs, written) && Extends(fs0, fs)
    requires MkdirParents(fs, d).Ok?
    ensures WrittenList(fs0, ps, MkdirParents(fs, d).value, written)
  {
    var fs1 := MkdirParents(fs, d).value;
    forall q | Written(fs0, fs1, q)
      ensures q in written
    {
      assert Written(fs0, fs, q);
    }
  }

  lemma PlaceWriteFrame(fs0: FileSystem, ps: set<Path>, fs1: FileSystem, p: Path)
    requires PlaceFrame(fs0, ps, fs1) && p in ps
    requires DirChain(fs1, Parent(p)) && p !in fs1
    ensures PlaceFrame(fs0, ps, fs1[p := File(Placeholder)])
  {
    if Valid(fs0) {
      assert p != [] by {
        assert [] in fs1 by {
          assert Parent(p)[..0] == [];
        }
      }
      assert IsDir(fs1, Parent(p)) by {
        assert Parent(p)[..|Parent(p)|] == Parent(p);
      }
      WriteValid(fs1, p, File(Placeholder));
    }
  }

  lemma PlaceWriteWritten(fs0: FileSystem, ps: set<Path>, fs1: FileSystem, written: seq<Path>, p: Path)
    requires WrittenList(fs0, ps, fs1, written) && Extends(fs0, fs1) && p in ps && p !in fs1
    ensures WrittenList(fs0, ps, fs1[p := File(Placeholder)], written + [p])
  {
    var fs2 := fs1[p := File(Placeholder)];
    var w := written + [p];
    forall i | 0 <= i < |w|
      ensures Written(fs0, fs2, w[i]) && w[i] in ps
    {
      if i < |written| {
        assert w[i] == written[i];
      }
    }
    forall q | Written(fs0, fs2, q)
      ensures q in w
    {
      if q != p {
        assert Written(fs0, fs1, q);
      }
    }
    assert forall i | 0 <= i < |written| :: written[i] != p;
  }

  /** One iteration keeps the invariant and, unless it raised, leaves its path placed. */
  lemma PlaceOneInv(fs0: FileSystem, ps: set<Path>, st: WriteState, p: Path)
    requires PlaceInv(fs0, ps, st) && p in ps
    ensures PlaceInv(fs0, ps, PlaceOne(st, p))
    ensures Extends(st.fs, PlaceOne(st, p).fs)
    ensures PlaceOne(st, p).failure.None? ==> st.failure.None? && Placed(PlaceOne(st, p).fs, p)
  {
    if st.failure.None? {
      var m := MkdirParents(st.fs, Parent(p));
      if m.Ok? {
        PlaceDirsFrame(fs0, ps, st.fs, p);
        PlaceDirsWritten(fs0, ps, st.fs, st.written, Parent(p));
        if p !in m.value {
          PlaceWriteFrame(fs0, ps, m.value, p);
          PlaceWriteWritten(fs0, ps, m.value, st.written, p);
          DirChainExtends(m.value, m.value[p := File(Placeholder)], Parent(p));
        }
      }
    }
  }

  lemma PlacedExtends(fs: FileSystem, fs': FileSystem, p: Path)
    requires Placed(fs, p) && Extends(fs, fs')
    ensures Placed(fs', p)
  {
    DirChainExtends(fs, fs', Parent(p));
  }

  /** The loop keeps the invariant; if it ran to the end, every listed path is placed. */
  lemma {:induction false} PlaceAllInv(fs0: FileSystem, ps: set<Path>, st: WriteState, paths: seq<Path>)
    requires PlaceInv(fs0, ps, st)
    requires forall i | 0 <= i < |paths| :: paths[i] in ps
    ensures PlaceInv(fs0, ps, PlaceAll(st, paths))
    ensures Extends(st.fs, PlaceAll(st, paths).fs)
    ensures PlaceAll(st, paths).failure.None? ==>
      st.failure.None? && forall i | 0 <= i < |paths| :: Placed(PlaceAll(st, paths).fs, paths[i])
    decreases |paths|
  {
    if paths != [] {
      var st1 := PlaceOne(st, paths[0]);
      PlaceOneInv(fs0, ps, st, paths[0]);
      var tail := paths[1..];
      assert forall i | 0 <= i < |tail| :: tail[i] == paths[i + 1];
      PlaceAllInv(fs0, ps, st1, tail);
      var r := PlaceAll(st1, tail);
      if r.failure.None? {
        forall i | 0 <= i < |paths|
          ensures Placed(r.fs, paths[i])
        {
          if i == 0 {
            PlacedExtends(st1.fs, r.fs, paths[0]);
          } else {
            assert paths[i] == tail[i - 1];
          }
        }
      }
    }
  }

  /**
    Lines 124-131 of `plugin.py`: for each listed path, its parent directories
    are created and the placeholder is written if the path does not exist.
   */
  function WritePlaceholders(fs: FileSystem, paths: seq<Path>): (r: WriteState)
    ensures Extends(fs, r.fs)
    ensures forall k | k in r.fs && k !in fs :: PlacedEntry((set p | p in paths), k, r.fs[k])
    ensures Valid(fs) ==> Valid(r.fs)
    ensures r.failure.None? ==> forall p | p in paths :: p in r.fs
    ensures forall p :: p in r.written <==> Written(fs, r.fs, p)
    ensures forall p | p in r.written :: p in paths
    ensures Distinct(r.written)
    ensures r.failure.Some? ==> exists p | p in paths :: r.failure.value == CannotCreateDir(Parent(p)) && FileOnChain(r.fs, Parent(p))
  {
    var ps := set p | p in paths;
    var st0 := WriteState(fs, [], None);
    assert PlaceInv(fs, ps, st0);
    PlaceAllInv(fs, ps, st0, paths);
    PlaceAll(st0, paths)
  }

  /** A raised exception ends the loop: nothing after it runs. */
  lemma {:induction false} PlaceAllFailed(st: WriteState, paths: seq<Path>)
    requires st.failure.Some?
    ensures PlaceAll(st, paths) == st
    decreases |paths|
  {
    if paths != [] {
      PlaceAllFailed(st, paths[1..]);
    }
  }

  /** Paths already placed are passed over without any change. */
  lemma {:induction false} PlaceAllPlaced(st: WriteState, paths: seq<Path>)
    requires st.failure.None?
    requires forall i | 0 <= i < |paths| :: Placed(st.fs, paths[i])
    ensures PlaceAll(st, paths) == st
    decreases |paths|
  {
    if paths != [] {
      MkdirExisting(st.fs, Parent(paths[0]));
      assert PlaceOne(st, paths[0]) == st;
      var tail := paths[1..];
      assert forall i | 0 <= i < |tail| :: tail[i] == paths[i + 1];
      PlaceAllPlaced(st, tail);
    }
  }

  lemma {:induction false} PlaceAllAppend(st: WriteState, a: seq<Path>, b: seq<Path>)
    ensures PlaceAll(st, a + b) == PlaceAll(PlaceAll(st, a), b)
    decreases |a|
  {
    if a == [] {
      assert a + b == b;
    } else {
      assert (a + b)[0] == a[0];
      assert (a + b)[1..] == a[1..] + b;
      PlaceAllAppend(PlaceOne(st, a[0]), a[1..], b);
    }
  }

  /**
    The doubled missing list the doubly registered validator produces writes
    exactly what the single list writes: the existence check keeps writes single.
   */
  lemma WriteTwiceIsWriteOnce(fs: FileSystem, paths: seq<Path>)
    ensures WritePlaceholders(fs, paths + paths) == WritePlaceholders(fs, paths)
  {
    var st0 := WriteState(fs, [], None);
    var st1 := PlaceAll(st0, paths);
    PlaceAllAppend(st0, paths, paths);
    assert PlaceInv(fs, (set p | p in paths), st0);
    PlaceAllInv(fs, (set p | p in paths), st0, paths);
    if st1.failure.Some? {
      PlaceAllFailed(st1, paths);
    } else {
      PlaceAllPlaced(st1, paths);
    }
  }

  // ---------------------------------------------------------------------------
  // pytest_sessionstart

  /** How the session start ends: carrying on (with the placeholders written), `pytest.exit`, or an exception. */
  datatype Outcome = Proceed(written: seq<Path>) | Exit(code: int, reported: seq<Path>) | Raised(error: FsError)

  datatype Session = Session(fs: FileSystem, outcome: Outcome)

  /**
    Lines 122-136 of `plugin.py`: a non-empty missing list is either written
    out as placeholders, when generation is on, or reported with exit code 1.
   */
  function Decide(fs: FileSystem, missing: seq<Path>, autoGenerate: bool, noGenerate: bool): (r: Session)
    ensures missing == [] ==> r == Session(fs, Proceed([]))
    ensures r.outcome.Exit? <==> missing != [] && !(autoGenerate && !noGenerate)
    ensures r.outcome.Exit? ==> r.fs == fs && r.outcome == Exit(1, missing)
    ensures Extends(fs, r.fs)
    ensures forall k | k in r.fs && k !in fs :: PlacedEntry((set p | p in missing), k, r.fs[k])
    ensures r.outcome.Proceed? ==> forall p | p in missing :: p in r.fs
    ensures r.outcome.Proceed? ==> forall p :: p in r.outcome.written <==> Written(fs, r.fs, p)
    ensures r.outcome.Raised? ==> exists p | p in missing :: r.outcome.error == CannotCreateDir(Parent(p))
  {
    if missing == [] then Session(fs, Proceed([]))
    else if autoGenerate && !noGenerate then
      var w := WritePlaceholders(fs, missing);
      Session(w.fs, if w.failure.Some? then Raised(w.failure.value) else Proceed(w.written))
    else Session(fs, Exit(1, missing))
  }

  /** The session's hook call, on the package and tests directories it resolved, against the given registry. */
  function SessionWith(fs: FileSystem, cfg: SessionConfig, parse: string -> Path,
                       srcNames: seq<string>, rootNames: seq<string>, registry: seq<Validator>): Session
  {
    match ResolvePackageDir(fs, cfg, parse, srcNames, rootNames)
    case Err(e) => Session(fs, Raised(e))
    case Ok(pkg) =>
      match Missing(registry, pkg, ResolveTestsDir(cfg, parse))
      case Err(e) => Session(fs, Raised(e))
      case Ok(missing) => Decide(fs, missing, AutoGenerateConfig(cfg.ini), cfg.noGenerate)
  }

  /** Line 110-111: the manager's own mirror validator, then a second one registered on top. */
  function SessionRegistry(fs: FileSystem, rglob: Path -> seq<Path>): seq<Validator> {
    GetPluginManager(MirrorValidator(fs, rglob)) + [MirrorValidator(fs, rglob)]
  }

  /**
    `pytest_sessionstart`. `parse` turns option text into a path, `srcNames`
    and `rootNames` are the listings of `root/src` and `root`, and `rglob`
    gives the order in which a package's entries are enumerated.
   */
  function SessionStart(fs: FileSystem, cfg: SessionConfig, parse: string -> Path,
                        srcNames: seq<string>, rootNames: seq<string>, rglob: Path -> seq<Path>): (r: Session)
    ensures Extends(fs, r.fs)
    ensures r.outcome.Exit? ==> r.fs == fs && r.outcome.code == 1 && r.outcome.reported != []
    ensures r.outcome.Raised? && !r.outcome.error.CannotCreateDir? ==> r.fs == fs
    ensures !AutoGenerateConfig(cfg.ini) || cfg.noGenerate ==> r.fs == fs
    // the only files it creates are placeholders, and never a package initializer
    ensures forall k | k in r.fs && k !in fs && r.fs[k].File? :: r.fs[k] == File(Placeholder) && Name(k) != InitFile
  {
    var r := SessionWith(fs, cfg, parse, srcNames, rootNames, SessionRegistry(fs, rglob));
    match ResolvePackageDir(fs, cfg, parse, srcNames, rootNames)
    case Err(_) => r
    case Ok(pkg) =>
      var tests := ResolveTestsDir(cfg, parse);
      var v := MirrorValidator(fs, rglob);
      MissingTwice(v, pkg, tests);
      assert SessionRegistry(fs, rglob) == [v, v];
      match Missing([v, v], pkg, tests)
      case Err(_) => r
      case Ok(missing) =>
        var m := FindMissing(fs, pkg, tests, rglob(pkg)).value;
        assert missing == m + m;
        forall k | k in r.fs && k !in fs && r.fs[k].File?
          ensures r.fs[k] == File(Placeholder) && Name(k) != InitFile
        {
          var p :| p in missing && ((IsPrefix(k, Parent(p)) && r.fs[k] == Dir) || (k == p && r.fs[k] == File(Placeholder)));
          assert p in m;
          var walk := rglob(pkg);
          var j :| 0 <= j < |m| && m[j] == p;
          var i :| 0 <= i < |walk| && IsModule(walk[i]) && m[j] == Mirror(tests)(walk[i]);
          MirrorNotInit(tests, walk[i]);
        }
        r
  }

  /**
    What the session does once the package directory is resolved: the
    validator's exception propagates; an empty list carries on untouched;
    with generation off the run ends with code 1 and the list, each path
    twice (once per registered validator); with generation on, the
    placeholders are written once each, as for the single list.
   */
  lemma SessionOutcomes(fs: FileSystem, cfg: SessionConfig, parse: string -> Path,
                        srcNames: seq<string>, rootNames: seq<string>, rglob: Path -> seq<Path>, pkg: Path)
    requires ResolvePackageDir(fs, cfg, parse, srcNames, rootNames) == Ok(pkg)
    ensures var r := SessionStart(fs, cfg, parse, srcNames, rootNames, rglob);
      var found := FindMissing(fs, pkg, ResolveTestsDir(cfg, parse), rglob(pkg));
      && (found.Err? ==> r == Session(fs, Raised(found.error)))
      && (found == Ok([]) ==> r == Session(fs, Proceed([])))
      && (found.Ok? && found.value != [] && (!AutoGenerateConfig(cfg.ini) || cfg.noGenerate) ==>
            r == Session(fs, Exit(1, found.value + found.value)))
      && (found.Ok? && found.value != [] && AutoGenerateConfig(cfg.ini) && !cfg.noGenerate ==>
            var w := WritePlaceholders(fs, found.value);
            r == Session(w.fs, if w.failure.Some? then Raised(w.failure.value) else Proceed(w.written)))
  {
    var tests := ResolveTestsDir(cfg, parse);
    var v := MirrorValidator(fs, rglob);
    MissingTwice(v, pkg, tests);
    assert SessionRegistry(fs, rglob) == [v, v];
    var found := FindMissing(fs, pkg, tests, rglob(pkg));
    if found.Ok? {
      WriteTwiceIsWriteOnce(fs, found.value);
    }
  }

  /**
    A session that carries on has every mapped test path of the resolved
    package in place, when `rglob` enumerates the package in full.
   */
  lemma SessionGeneratesAll(fs: FileSystem, cfg: SessionConfig, parse: string -> Path,
                            srcNames: seq<string>, rootNames: seq<string>, rglob: Path -> seq<Path>, pkg: Path)
    requires ResolvePackageDir(fs, cfg, parse, srcNames, rootNames) == Ok(pkg)
    requires Enumerates(rglob(pkg), GlobEntries(fs, pkg))
    requires SessionStart(fs, cfg, parse, srcNames, rootNames, rglob).outcome.Proceed?
    ensures var r := SessionStart(fs, cfg, parse, srcNames, rootNames, rglob);
      forall p | p in MappedPaths(fs, pkg, ResolveTestsDir(cfg, parse)) :: p in r.fs
  {
    var tests := ResolveTestsDir(cfg, parse);
    var r := SessionStart(fs, cfg, parse, srcNames, rootNames, rglob);
    SessionOutcomes(fs, cfg, parse, srcNames, rootNames, rglob, pkg);
    FindMissingIsSetDifference(fs, pkg, tests, rglob(pkg));
    var m := FindMissing(fs, pkg, tests, rglob(pkg)).value;
    forall p | p in MappedPaths(fs, pkg, tests)
      ensures p in r.fs
    {
      if p !in fs {
        assert p in m;
      }
    }
  }

  /**
    With generation off, the session reports every missing test twice: the
    validator is registered by the manager and again on line 111.
   */
  lemma SessionReportsTwice(fs: FileSystem, cfg: SessionConfig, parse: string -> Path,
                            srcNames: seq<string>, rootNames: seq<string>, rglob: Path -> seq<Path>, pkg: Path)
    requires ResolvePackageDir(fs, cfg, parse, srcNames, rootNames) == Ok(pkg)
    requires SessionStart(fs, cfg, parse, srcNames, rootNames, rglob).outcome.Exit?
    ensures var reported := SessionStart(fs, cfg, parse, srcNames, rootNames, rglob).outcome.reported;
      var found := FindMissing(fs, pkg, ResolveTestsDir(cfg, parse), rglob(pkg));
      && found.Ok?
      && reported == found.value + found.value
      && !Distinct(reported)
  {
    SessionOutcomes(fs, cfg, parse, srcNames, rootNames, rglob, pkg);
    var m := FindMissing(fs, pkg, ResolveTestsDir(cfg, parse), rglob(pkg)).value;
    DoubledNotDistinct(m);
  }

  lemma DoubledNotDistinct(m: seq<Path>)
    requires m != []
    ensures !Distinct(m + m)
  {
    assert (m + m)[0] == (m + m)[|m|];
  }

  /** The session with the validator registered once, as the comment on line 109 intends. */
  function SessionStartOnce(fs: FileSystem, cfg: SessionConfig, parse: string -> Path,
                            srcNames: seq<string>, rootNames: seq<string>, rglob: Path -> seq<Path>): Session
  {
    SessionWith(fs, cfg, parse, srcNames, rootNames, GetPluginManager(MirrorValidator(fs, rglob)))
  }

  /**
    Registered once, the validator's report lists each missing test exactly
    once: precisely the mapped test paths that do not exist.
   */
  lemma SessionOnceReportsEachOnce(fs: FileSystem, cfg: SessionConfig, parse: string -> Path,
                                   srcNames: seq<string>, rootNames: seq<string>, rglob: Path -> seq<Path>, pkg: Path)
    requires ResolvePackageDir(fs, cfg, parse, srcNames, rootNames) == Ok(pkg)
    requires Enumerates(rglob(pkg), GlobEntries(fs, pkg))
    requires SessionStartOnce(fs, cfg, parse, srcNames, rootNames, rglob).outcome.Exit?
    ensures var r := SessionStartOnce(fs, cfg, parse, srcNames, rootNames, rglob);
      && r.fs == fs
      && Distinct(r.outcome.reported)
      && forall p :: p in r.outcome.reported <==> p in MappedPaths(fs, pkg, ResolveTestsDir(cfg, parse)) && p !in fs
  {
    var tests := ResolveTestsDir(cfg, parse);
    MissingOnce(MirrorValidator(fs, rglob), pkg, tests);
    FindMissingIsSetDifference(fs, pkg, tests, rglob(pkg));
  }
}

=== FILE: registry.dfy ===
/**
  The `validate_test_structure` hook: a registry of validators, each asked in
  turn for the missing tests of a package and tests directory, and the
  flattening of their per-validator lists into one list.
 */
module Registry {
  import opened Fs
  import opened Core

  /** One hook implementation: the missing test paths it reports, or the exception it raises. */
  type Validator = (Path, Path) -> Result<seq<Path>>

  /** `[item for sublist in nested for item in sublist]`. */
  function Flatten(xss: seq<seq<Path>>): (r: seq<Path>)
    ensures |r| == TotalLength(xss)
    ensures forall p :: p in r <==> exists i | 0 <= i < |xss| :: p in xss[i]
  {
    if xss == [] then []
    else
      var rest := Flatten(xss[1..]);
      assert forall i | 1 <= i < |xss| :: xss[i] == xss[1..][i - 1];
      xss[0] + rest
  }

  /** The number of items over all sublists. */
  function TotalLength(xss: seq<seq<Path>>): nat {
    if xss == [] then 0 else |xss[0]| + TotalLength(xss[1..])
  }

  lemma FlattenSingle(xs: seq<Path>)
    ensures Flatten([xs]) == xs
  {
    assert [xs][1..] == [];
    assert xs + [] == xs;
  }

  /** Flattening turns concatenation of nested lists into concatenation of flat ones. */
  lemma {:induction false} FlattenAppend(a: seq<seq<Path>>, b: seq<seq<Path>>)
    ensures Flatten(a + b) == Flatten(a) + Flatten(b)
  {
    if a != [] {
      assert (a + b)[1..] == a[1..] + b;
      FlattenAppend(a[1..], b);
    } else {
      assert a + b == b;
    }
  }

  /** The sublists of a flattened list occupy consecutive runs of it, in order. */
  lemma {:induction false} FlattenIndex(xss: seq<seq<Path>>, i: nat, k: nat)
    requires i < |xss| && k < |xss[i]|
    ensures TotalLength(xss[..i]) + k < |Flatten(xss)|
    ensures Flatten(xss)[TotalLength(xss[..i]) + k] == xss[i][k]
  {
    if i == 0 {
      assert xss[..0] == [];
    } else {
      var tail := xss[1..];
      assert xss[..i][1..] == tail[..i - 1];
      assert xss[..i][0] == xss[0];
      FlattenIndex(tail, i - 1, k);
      assert tail[i - 1] == xss[i];
    }
  }

  /**
    `pm.hook.validate_test_structure(package_dir=..., tests_dir=...)`: every
    validator is called in turn and the results are collected; the first
    exception ends the call and propagates.
   */
  function Dispatch(registry: seq<Validator>, pkg: Path, tests: Path): (r: Result<seq<seq<Path>>>)
    ensures r.Ok? <==> forall i | 0 <= i < |registry| :: registry[i](pkg, tests).Ok?
    ensures r.Ok? ==> |r.value| == |registry|
    ensures r.Ok? ==> forall i | 0 <= i < |registry| :: r.value[i] == registry[i](pkg, tests).value
    ensures r.Err? ==> exists i | 0 <= i < |registry| ::
      && registry[i](pkg, tests) == Err(r.error)
      && forall j | 0 <= j < i :: registry[j](pkg, tests).Ok?
  {
    if registry == [] then Ok([])
    else
      var tail := registry[1..];
      assert forall i | 1 <= i < |registry| :: registry[i] == tail[i - 1];
      match registry[0](pkg, tests)
      case Err(e) => Err(e)
      case Ok(first) =>
        match Dispatch(tail, pkg, tests)
        case Err(e) =>
          var k :| 0 <= k < |tail| && tail[k](pkg, tests) == Err(e) && forall j | 0 <= j < k :: tail[j](pkg, tests).Ok?;
          assert registry[k + 1] == tail[k];
          Err(e)
        case Ok(rest) => Ok([first] + rest)
  }

  /** Registering more validators appends their results after the earlier ones'. */
  lemma DispatchAppend(a: seq<Validator>, b: seq<Validator>, pkg: Path, tests: Path)
    requires Dispatch(a, pkg, tests).Ok? && Dispatch(b, pkg, tests).Ok?
    ensures Dispatch(a + b, pkg, tests) == Ok(Dispatch(a, pkg, tests).value + Dispatch(b, pkg, tests).value)
  {
    var ab := a + b;
    var ra := Dispatch(a, pkg, tests).value;
    var rb := Dispatch(b, pkg, tests).value;
    forall i | 0 <= i < |ab|
      ensures ab[i](pkg, tests).Ok? && ab[i](pkg, tests).value == (ra + rb)[i]
    {
      if i < |a| {
        assert ab[i] == a[i];
      } else {
        assert ab[i] == b[i - |a|];
      }
    }
    assert Dispatch(ab, pkg, tests).value == ra + rb;
  }

  /**
    The missing list the caller sees: the flattened hook result. Every path in
    it was reported by some validator, and every reported path is in it.
   */
  function Missing(registry: seq<Validator>, pkg: Path, tests: Path): (r: Result<seq<Path>>)
    ensures r.Ok? <==> forall i | 0 <= i < |registry| :: registry[i](pkg, tests).Ok?
    ensures r.Err? ==> exists i | 0 <= i < |registry| ::
      && registry[i](pkg, tests) == Err(r.error)
      && forall j | 0 <= j < i :: registry[j](pkg, tests).Ok?
    ensures r.Ok? ==> forall p :: p in r.value <==>
      exists i | 0 <= i < |registry| :: p in registry[i](pkg, tests).value
  {
    match Dispatch(registry, pkg, tests)
    case Err(e) => Err(e)
    case Ok(nested) =>
      var r := Flatten(nested);
      assert forall p | p in r :: exists i | 0 <= i < |registry| :: p in registry[i](pkg, tests).value by {
        forall p | p in r
          ensures exists i | 0 <= i < |registry| :: p in registry[i](pkg, tests).value
        {
          var i :| 0 <= i < |nested| && p in nested[i];
          assert nested[i] == registry[i](pkg, tests).value;
        }
      }
      assert forall i, p | 0 <= i < |registry| && p in registry[i](pkg, tests).value :: p in r by {
        forall i, p | 0 <= i < |registry| && p in registry[i](pkg, tests).value
          ensures p in r
        {
          assert p in nested[i];
        }
      }
      Ok(r)
  }

  /**
    `MirrorValidator`: behaves as `find_missing_tests` does, on the filesystem
    `fs`, with `rglob` giving the order in which the package's entries are enumerated.
   */
  function MirrorValidator(fs: FileSystem, rglob: Path -> seq<Path>): Validator {
    (pkg, tests) => FindMissing(fs, pkg, tests, rglob(pkg))
  }

  /** `get_plugin_manager()`: a registry holding one mirror validator. */
  function GetPluginManager(mirror: Validator): seq<Validator> {
    [mirror]
  }

  /** A registry holding one validator twice reports each of its paths twice, one copy after the other. */
  lemma MissingTwice(v: Validator, pkg: Path, tests: Path)
    ensures var r := Missing([v, v], pkg, tests);
      && (r.Err? <==> v(pkg, tests).Err?)
      && (r.Ok? ==> r.value == v(pkg, tests).value + v(pkg, tests).value)
  {
    var r := Dispatch([v, v], pkg, tests);
    if r.Ok? {
      var xs := v(pkg, tests).value;
      assert r.value == [xs, xs];
      FlattenSingle(xs);
      assert [xs, xs][1..] == [xs];
    }
  }

  /** A registry holding one validator reports exactly its list. */
  lemma MissingOnce(v: Validator, pkg: Path, tests: Path)
    ensures Missing(GetPluginManager(v), pkg, tests) == v(pkg, tests)
  {
    var r := Dispatch([v], pkg, tests);
    if r.Ok? {
      var xs := v(pkg, tests).value;
      assert r.value == [xs];
      FlattenSingle(xs);
    }
  }

  /**
    The hook call on a fresh manager collects exactly what `find_missing_tests`
    returns for the same directories: its list, or its exception.
   */
  lemma ManagerReportsMirror(fs: FileSystem, rglob: Path -> seq<Path>, pkg: Path, tests: Path)
    ensures Missing(GetPluginManager(MirrorValidator(fs, rglob)), pkg, tests) == FindMissing(fs, pkg, tests, rglob(pkg))
  {
    MissingOnce(MirrorValidator(fs, rglob), pkg, tests);
  }
}
